=== FILE: README.md ===
# glassmind: a Dafny model of the capture-and-ask core

glassmind is a desktop overlay. Global hotkeys capture the screen, either one shot or
several pages in multi-page mode. It sends the images and an optional typed message to a
chat-completion API, then renders the answer in a transparent window. This project models
the parts of the main process and the renderer that decide what happens:

- the application controller (`src/js/app-controller.js`);
- its services for screenshots, inference, configuration, windows and shortcuts;
- the renderer's IPC handlers and banner formatting;
- the `start.js` launcher.

Each service is a module of pure functions over immutable state. The collaborators the
program cannot see become parameters:

- the screen grab is a `Result<Image>`;
- the API is a function from request to reply;
- Electron's accelerator parser is a predicate on strings;
- reading and parsing a JSON file is a `Result<Value>`.

Everything one command sends to the renderer, plus the native window shows and hides, is
recorded as a trace of events (`Ipc.Event`). The renderer is modelled as a fold of its
handlers over such a trace.

The main structure:

- **JS values.** `JsValues` models JavaScript values, including `undefined` and `null`, their
  truthiness, and the `TypeError` a property read on either raises.
- **Controller.** Every controller command returns an `Outcome`: the new application state,
  the trace, and the error it re-throws, if any.
- **Hotkeys.** `Hotkeys.Press` is the callback a shortcut runs. Its `try`/`catch` swallows
  whatever the controller throws.
- **Session.** `Session.Run` runs a sequence of user actions. `Session.Expected` is an
  independent, state-machine description of the session the code produces, view by view: the images collected, the
  mode, the typed message and the stage. `Session.RunMatches` proves the controller follows it.
- **Busy indicator.** `Ipc.Settles` says every `request-started` is eventually followed by a
  `request-finished`. `Renderer.Calm` says the renderer's waiting animation ends a trace
  switched off. Both are proved for every press and every run.

Behaviour of the code that a reader might not expect, and that the model keeps:

- A single-shot capture whose inference fails keeps the captured image and leaves the stage
  where it was (`Session.FailedInferenceKeepsImage`).
- A completion with no choices, or whose first choice has no `message`, makes reading
  `choices[0].message.content` throw. That happens after `request-finished` was already sent,
  and the `catch` in `processScreenshots` sends it again, so it goes out twice
  (`Inference.ProcessSignals`).
- Pressing the toggle accelerator a second time within the 100 ms debounce after hiding
  leaves the window hidden. `showWindow` re-registers every shortcut regardless, so all
  hotkeys are live on a hidden window (`Hotkeys.HiddenButAllBound`).
- The instruction texts the controller sends are modelled as `Ipc.Note`, and `Ipc.NoteText`
  gives their exact strings. This includes the reset text with its doubled space and the
  "Ctrl+I" of the second multi-mode text.

## Model

| member | source | states |
|---|---|---|
| JsValues.Get | src/js/services/config-service.js:28-33 | a property read throws exactly on `undefined`/`null`; on an object holding the key it yields that member; any other defined result comes from an object's own member |
| JsValues.TruthyFieldMeansObject | src/js/services/config-service.js:28-30 | a truthy property read can only come from an object that holds the key with a truthy value |
| JsText.Trim | src/js/ui/renderer.js:118 | `String.prototype.trim`: the result is a contiguous slice of the input, with only whitespace cut on both sides, and it neither starts nor ends with whitespace |
| JsText.TrimEmptyIff | src/js/ui/renderer.js:118-119 | trimming yields the empty string exactly when the input is all whitespace |
| JsText.TrimIdempotent | src/js/ui/renderer.js:118 | trimming twice is trimming once |
| Config.Load | src/js/services/config-service.js:23-43 | a read/parse error propagates; loading succeeds iff the parsed value is an object with a truthy `apiKey`, else "API key is missing"; the result always has a truthy model; every other key is kept unchanged; a falsy model becomes `gpt-4o-mini` |
| Config.Current | src/js/services/config-service.js:49-51 | `getConfig` returns the configuration currently held |
| Config.Update | src/js/services/config-service.js:58-67 | a successful write replaces the current configuration and reports true; a failed write keeps the old one and reports false |
| Config.UpdateSkipsValidation | src/js/services/config-service.js:58-67 | every configuration without a truthy API key, which `loadConfig` refuses with "API key is missing", becomes current through `updateConfig` once written |
| Config.LoadedModelIsKept | src/js/services/openai-service.js:13-28 | the inference service built from a loaded configuration uses exactly the configuration's model |
| Inference.NewService | src/js/services/openai-service.js:13-28 | the service's model is the configuration's truthy model, else `gpt-4o-mini`; it is attached to the window when one exists |
| Inference.ImageParts | src/js/services/openai-service.js:48-53 | one image part per screenshot, in order, each a `data:image/png;base64,` URL of that screenshot |
| Inference.Content | src/js/services/openai-service.js:44-53 | the first part is the user message, or the default prompt when it is empty; then the images in order |
| Inference.Signals | src/js/services/openai-service.js:39-41 | an unattached service sends nothing; an attached one sends `request-started` and then only `request-finished` signals |
| Inference.Answer | src/js/services/openai-service.js:56-79 | the call succeeds iff the reply is a completion whose first choice has a message, and then yields its content; a rejected request fails with its message; a completion with no choices or no message fails with V8's `TypeError` text |
| Inference.Process | src/js/services/openai-service.js:36-80 | success iff the API's reply to the built request is well formed, with its content; rejection propagates its message; an unattached service signals nothing, and an attached one opens with `request-started` and closes with `request-finished` |
| Inference.SignalsCount | src/js/services/openai-service.js:39-41 | one `request-started` when attached, the given number of `request-finished`, and the trace settles |
| Inference.ProcessSignals | src/js/services/openai-service.js:64-79 | an attached call starts once and finishes once, or twice for a malformed completion; the trace always settles |
| Screenshots.Add | src/js/services/screenshot-service.js:61-63 | the image is appended after the existing ones, which are kept |
| Screenshots.Clear | src/js/services/screenshot-service.js:76-78 | the collection becomes empty |
| Screenshots.CaptureShot | src/js/services/screenshot-service.js:20-55 | the capture yields the grab's outcome; the busy indicator starts, the window hides and shows again and the indicator stops, on both paths (the first five events are always started, hide-instruction, native hide, native show, finished); a failure then sends the error message |
| Screenshots.HeadSignals | src/js/services/screenshot-service.js:25-42 | the fixed head of a capture starts and finishes the indicator once and hides and shows the window once, and it settles |
| Screenshots.CaptureSignals | src/js/services/screenshot-service.js:20-55 | every capture, failed or not, starts and finishes the indicator exactly once, hides and shows once, and settles |
| Windows.Init | src/js/services/window-service.js:23-57 | the main window starts shown, with no toggle pending, at stage boot, and no settings window |
| Windows.Show | src/js/services/window-service.js:103-121 | showing is refused while a toggle is pending or when already shown; otherwise the window shows, a toggle becomes pending, and the renderer gets `show-app` after an answer and an `update-instruction` without text before one |
| Windows.Hide | src/js/services/window-service.js:126-140 | hiding is refused while a toggle is pending or when hidden; otherwise the renderer is told to hide, then the window hides and a toggle becomes pending |
| Windows.TimerFired | src/js/services/window-service.js:118-120 | the 100 ms debounce timer clears the pending toggle and changes nothing else |
| Windows.ToggleDebounced | src/js/services/window-service.js:103-140 | a second toggle before the timer fires does nothing; after the timer, hide undoes show and show undoes hide |
| Windows.Move | src/js/services/window-service.js:176-194 | each direction moves the window by 50 pixels along one axis only; an unknown direction leaves it where it is |
| Windows.MoveInverse | src/js/services/window-service.js:176-194 | opposite moves cancel |
| Windows.Center | src/js/services/window-service.js:164-170 | the window's position is the floor of half the free space on each axis, and nothing else changes |
| Windows.SetStage | src/js/services/window-service.js:208-210 | only the stage changes |
| Windows.OpenSettings | src/js/services/window-service.js:62-98 | a settings window exists afterwards; an existing one is focused instead of a second being created |
| Windows.SettingsClosed | src/js/services/window-service.js:91-93 | the `closed` handler forgets the settings window and nothing else |
| Windows.OpenRepeatedly | src/js/services/window-service.js:62-98 | opening one or more times leaves exactly one settings window and changes nothing else |
| Windows.SettingsSingleton | src/js/services/window-service.js:62-98 | any number of openings creates the settings window exactly once |
| Windows.Instruct | src/js/services/window-service.js:146-150 | `updateInstruction` sends one `update-instruction` message carrying the text |
| Shortcuts.Load | src/js/services/shortcut-service.js:23-55 | the table is always truthy; it is the file's truthy `shortcuts` member, or the default table on a missing file, a read or parse error, or a falsy member |
| Shortcuts.Claim | src/js/services/shortcut-service.js:155-163 | registering an accelerator already bound keeps the first binding; a new one is bound to the command; existing bindings are untouched |
| Shortcuts.Register | src/js/services/shortcut-service.js:155-163 | an accelerator that is not a string, or whose trim is empty, or that Electron cannot parse, registers nothing; otherwise it is claimed |
| Shortcuts.AttemptsIndexed | src/js/services/shortcut-service.js:60-148 | the registration attempts are the slots in order, each with the accelerator it reads and its command |
| Shortcuts.BindSound | src/js/services/shortcut-service.js:60-148 | registering a list keeps existing bindings, binds every attempted accelerator, and binds each new accelerator to the command of some attempt for it |
| Shortcuts.FirstAttemptWins | src/js/services/shortcut-service.js:155-163 | the first attempt for an unbound accelerator is the one that stays bound |
| Shortcuts.RegisterAll | src/js/services/shortcut-service.js:60-148 | every slot's accelerator, configured or fixed, gets bound, and every binding belongs to some slot with that accelerator and command |
| Shortcuts.RegisterSlots | src/js/services/shortcut-service.js:60-148 | the same for any list of slots |
| Shortcuts.SlotWins | src/js/services/shortcut-service.js:60-148 | a slot whose accelerator no earlier slot used runs its own command |
| Shortcuts.FixedSlotKeepsCommand | src/js/services/shortcut-service.js:119-147 | a fixed accelerator (the move, centre and scroll keys) no configured shortcut claims runs its own command |
| Shortcuts.FixedDistinct | src/js/services/shortcut-service.js:119-147 | the fixed accelerators are pairwise distinct |
| Shortcuts.RegisterShowOnly | src/js/services/shortcut-service.js:168-174 | while hidden, the configured toggle is bound to showing the window when it is registrable and Electron parses it, and nothing at all is bound otherwise |
| Controller.Start | src/js/app-controller.js:19-56 | construction fails, with `loadConfig`'s error, exactly when the configuration does not load; otherwise the controller starts in single mode with no message, no images, stage boot, a shown window, an attached inference service using the loaded model, and every shortcut registered |
| Controller.TextInput | src/js/app-controller.js:66-70 | typed text replaces the message and the first multi-mode instruction is shown; nothing else changes |
| Controller.Deliver | src/js/app-controller.js:125-141 | a successful answer is sent to the renderer and the stage becomes answered; a failure sends its message as an error, is re-thrown, and leaves the state as it was |
| Controller.Process | src/js/app-controller.js:125-141 | the command succeeds iff the API answers the images and message well; success ends with the answer, failure ends with the error and leaves the state unchanged; a rejection re-throws its message |
| Controller.TakeSingle | src/js/app-controller.js:76-85 | a failed grab is re-thrown with no change; a good one is appended, then processed; the stage becomes answered iff the answer came back; a failure keeps stage and window; a failed grab emits only the capture's events, with no inference request; a good one emits the capture's events followed by the processing's |
| Controller.HandleMulti | src/js/app-controller.js:90-108 | the first press only arms multi-page mode; later presses add the grabbed image, set stage collecting and show the second instruction after the capture's events; a failed grab emits only the capture's events and is re-thrown with no change |
| Controller.Finalize | src/js/app-controller.js:113-120 | finalizing processes the collected images and message: it succeeds iff the API answers them well, then sends the answer and moves to stage answered; otherwise it sends the error, re-throws it and changes nothing; images, mode and message are kept either way |
| Controller.Reset | src/js/app-controller.js:146-156 | images, mode, message and stage return to their initial values; the renderer is cleared and shown the help text; nothing else changes |
| Controller.ShowTextInput | src/js/app-controller.js:184-190 | only in multi-page mode: the window shows and the text input opens; the state is unchanged |
| Controller.ShowWindow | src/js/app-controller.js:161-164 | the window service's guarded show, a no-op while a toggle is pending or the window is shown; every shortcut is registered again regardless |
| Controller.HideWindow | src/js/app-controller.js:169-172 | the window service's guarded hide, a no-op while a toggle is pending or the window is hidden; only the toggle shortcut stays registered regardless |
| Controller.OpenSettings | src/js/app-controller.js:177-179 | only the settings window changes; it is created when none is open and focused otherwise |
| Controller.MoveWindow | src/js/app-controller.js:196-198 | only the window position changes, silently |
| Controller.CenterWindow | src/js/app-controller.js:203-205 | only the window position changes, silently |
| Controller.ScrollWindow | src/js/app-controller.js:211-213 | the amount is forwarded to the renderer; the state is unchanged |
| Controller.Quit | src/js/app-controller.js:218-221 | the application quits; the state is unchanged |
| Controller.DeliverSettles | src/js/app-controller.js:125-141 | delivering a settled inference call keeps the trace settled |
| Controller.ProcessSettles | src/js/app-controller.js:125-141 | processing never leaves the busy indicator started |
| Controller.TakeSingleSettles | src/js/app-controller.js:76-85 | a single capture never leaves the busy indicator started, on any path |
| Controller.HandleMultiSettles | src/js/app-controller.js:90-108 | a multi-mode press never leaves the busy indicator started |
| Hotkeys.Press | src/js/services/shortcut-service.js:60-148 | no callback lets an error escape; every callback keeps the controller's invariants and its fixed parts |
| Hotkeys.Fire | src/js/services/shortcut-service.js:155-163 | a bound accelerator runs its command's callback; an unbound one does nothing |
| Hotkeys.CaptureDispatch | src/js/services/shortcut-service.js:70-83 | the capture key finalizes in multi-page mode, keeping the images, and otherwise takes a shot, adding the grab or changing nothing |
| Hotkeys.ToggleDispatch | src/js/services/shortcut-service.js:104-111 | the toggle key hides a shown window with only the toggle left registered, and shows a hidden one with everything registered |
| Hotkeys.QuietCommands | src/js/services/shortcut-service.js:60-148 | only the two capture keys can start a request |
| Hotkeys.PressSettles | src/js/services/shortcut-service.js:60-148 | no hotkey leaves the busy indicator started |
| Hotkeys.ScrollPress | src/js/services/shortcut-service.js:141-147 | the scroll callback only forwards its amount |
| Hotkeys.ScrollKeys | src/js/services/shortcut-service.js:141-147 | with every shortcut registered, `CommandOrControl+U` scrolls the answer up 100 pixels and `CommandOrControl+D` down 100, unless a configured shortcut took the same string |
| Hotkeys.ShowOnlyShows | src/js/services/shortcut-service.js:168-174 | the show-only binding shows the hidden window and registers everything again |
| Hotkeys.ShowOnlyRebinds | src/js/app-controller.js:161-164 | the show-only binding runs the guarded show and registers every shortcut again whether or not the window showed |
| Hotkeys.HiddenButAllBound | src/js/services/window-service.js:103-107 | a second toggle press within the debounce after hiding leaves the window hidden with every shortcut registered |
| Hotkeys.HiddenKeysOnlyShow | src/js/services/shortcut-service.js:104-111 | after hiding, every accelerator still bound shows the window; once the timer fired, pressing it restores the window and all shortcuts, and any other accelerator does nothing |
| Ipc.SettlesMeaning | src/js/services/openai-service.js:64-76 | a trace settles iff every `request-started` in it has a later `request-finished` |
| Ipc.SettlesAppend | src/js/app-controller.js:76-85 | settled traces stay settled when concatenated |
| Ipc.NoStartSettles | src/js/app-controller.js:146-221 | a trace with no `request-started` settles |
| Renderer.SourceScan | src/js/ui/renderer.js:44 | scanning a text for `Ctrl+Shift+<capital>` loses nothing: the pieces spell the text again |
| Renderer.FormatIsIdentity | src/js/ui/renderer.js:90-92 | `formatKeyboardShortcuts` replaces every match by itself, so it returns its input |
| Renderer.MarkupLength | src/js/ui/renderer.js:44 | the banner markup grows by exactly one `kbd` span per shortcut found |
| Renderer.ScanFindsKeys | src/js/ui/renderer.js:44 | the scan finds a shortcut iff the text contains `Ctrl+Shift+` followed by a capital letter |
| Renderer.KeyAtTail | src/js/ui/renderer.js:44 | a shortcut match does not depend on the characters before it |
| Renderer.MarkupWithoutKeys | src/js/ui/renderer.js:42-46 | a text without shortcuts is shown unchanged |
| Renderer.RenderPlain | src/js/ui/renderer.js:44 | pieces with no shortcut render as their own text |
| Renderer.Init | src/js/ui/renderer.js:224-229 | the page starts with no animation running, none leaked, and the banner fully visible |
| Renderer.UpdateBanner | src/js/ui/renderer.js:39-47 | the opacity follows `show`; an empty text keeps the banner's contents; any other text becomes the banner with shortcuts marked up; nothing else changes |
| Renderer.StartWaiting | src/js/ui/renderer.js:56-72 | a pulse interval runs and the opacity to restore is remembered; an interval already running is overwritten and leaks |
| Renderer.StopWaiting | src/js/ui/renderer.js:73-82 | stopping with no interval does nothing; otherwise the interval is cleared and the remembered opacity, or full, is restored |
| Renderer.Apply | src/js/ui/renderer.js:97-191 | each IPC handler: an answer or an error stops the animation and shows the overlay with that response; an instruction shows the banner; hide-instruction only clears the banner's opacity; hide-app stops the animation and hides banner and overlay; show-app shows them; clear-result stops the animation and blanks and hides the response; scroll changes nothing; request-started starts pulsing and request-finished stops; show-text-input opens the input with an empty value, and no other handler touches the input |
| Renderer.AnswerBanner | src/js/ui/renderer.js:127-136 | after an answer the banner shows the answered-stage help with its shortcuts marked up |
| Renderer.InstructionBanner | src/js/ui/renderer.js:149-151 | an instruction with a text replaces the banner with that text, marked up |
| Renderer.ApplyTraceAppend | src/js/ui/renderer.js:126-191 | handling two traces in turn is handling their concatenation |
| Renderer.BusyAppend | src/js/ui/renderer.js:126-191 | whether the animation runs after a concatenation is computed through the first part |
| Renderer.CalmAppend | src/js/ui/renderer.js:126-191 | two calm traces make a calm trace |
| Renderer.NoStartBusy | src/js/ui/renderer.js:182-188 | without `request-started` the animation never starts |
| Renderer.NoStartCalm | src/js/ui/renderer.js:182-188 | a trace without `request-started` is calm |
| Renderer.BracketCalm | src/js/ui/renderer.js:182-188 | `request-started`, then anything that does not start again, then `request-finished` is calm |
| Renderer.TimerFollowsBusy | src/js/ui/renderer.js:53-83 | on a trace that never starts the animation twice in a row, the page's animation state is the trace's busy state, and no interval leaks |
| Renderer.CalmLeavesIdle | src/js/ui/renderer.js:53-83 | a calm trace leaves an idle page idle, with no interval leaked |
| Renderer.OverlapLeaks | src/js/ui/renderer.js:56-72 | two overlapping requests leave an interval running and leaked, even after both finish |
| Renderer.SendText | src/js/ui/renderer.js:116-123 | text is sent iff the input is not all whitespace; then its trimmed value goes and the input closes; otherwise nothing changes |
| Renderer.KeyDown | src/js/ui/renderer.js:213-220 | Enter without Shift sends the text, Escape closes the input, and any other key does nothing |
| Launcher.Launch | start.js:9-44 | the template is copied exactly when there is no configuration and a template exists, then the launcher exits 0; Electron starts iff the configuration parses with a truthy API key other than the placeholder, and its exit code is passed on; a missing or unreadable configuration exits 1, anything else 0 |
| Launcher.ExitCode | start.js:37-39 | the launcher exits with the child's close code, and with 0 when the child closed with `null` |
| Launcher.LaunchedConfigLoads | start.js:24-35 | whenever the launcher starts the application, the application's own configuration load accepts the same file |
| Launcher.PlaceholderRefused | start.js:28-31 | the template's placeholder key passes the application's load but stops the launcher |
| Session.Step | src/js/app-controller.js:61-71 | no action ends in an error, and every action keeps the controller's invariants |
| Session.Run | src/js/app-controller.js:61-71 | the same for any sequence of actions |
| Session.StepMatches | src/js/app-controller.js:76-156 | one action changes images, mode, message and stage as the session description says |
| Session.PressMatches | src/js/services/shortcut-service.js:60-148 | every hotkey changes the session as described |
| Session.CaptureMatches | src/js/services/shortcut-service.js:70-83 | the capture key changes the session as described |
| Session.MultiMatches | src/js/services/shortcut-service.js:85-92 | the multi-capture key changes the session as described |
| Session.RunMatches | src/js/app-controller.js:76-156 | any run of actions follows the session description |
| Session.ExpectedImages | src/js/app-controller.js:76-156 | by the description, an action other than reset keeps the images and adds at most one; reset clears them |
| Session.OnlyResetClears | src/js/app-controller.js:146-156 | without a reset, images are only ever appended, at most one per action |
| Session.RunKeepsImages | src/js/app-controller.js:76-156 | the controller's images obey the same law over any run without a reset |
| Session.AnsweredOnlyByInference | src/js/app-controller.js:125-141 | the stage becomes answered only by a capture-key press whose inference call answered |
| Session.FailedInferenceKeepsImage | src/js/app-controller.js:76-85 | a single shot whose inference fails keeps the new image and the stage |
| Session.RunSettles | src/js/services/openai-service.js:64-76 | no run of actions leaves a `request-started` without a later `request-finished` |
| Session.CaptureCalm | src/js/services/screenshot-service.js:20-55 | a capture leaves the renderer's animation stopped |
| Session.SignalsCalm | src/js/services/openai-service.js:39-76 | the inference service's signals leave the animation stopped, including the doubled finish |
| Session.ProcessCalm | src/js/app-controller.js:125-141 | processing leaves the animation stopped |
| Session.DeliverCalm | src/js/app-controller.js:125-141 | delivering a calm call stays calm |
| Session.CaptureKeyCalm | src/js/services/shortcut-service.js:70-83 | the capture key leaves the animation stopped |
| Session.MultiKeyCalm | src/js/services/shortcut-service.js:85-92 | the multi-capture key leaves the animation stopped |
| Session.PressCalm | src/js/services/shortcut-service.js:60-148 | every hotkey leaves the animation stopped |
| Session.RunLeavesPageIdle | src/js/ui/renderer.js:53-83 | a page that starts idle and handles everything a run sends ends idle, with no interval leaked |

## Left out

- The file system, the screenshot tool, base64 encoding, the OpenAI client and `spawn` are outside the model. Their outcomes are parameters.
- Awaiting is left out: each command runs to completion before the next one starts. Overlapping commands are left out too, because their interleavings depend on timing. `Renderer.OverlapLeaks` shows what two overlapping requests do to the waiting animation.
- Timers are discrete events. The 200 ms capture delay has no effect on state. The 100 ms toggle debounce is the `Tick` action. The 200 ms pulse of the waiting animation, and its opacity steps, are left out, because they are floating-point cosmetics.
- Window creation options, sizes, transparency and the initial horizontal position are left out, because that position is computed in floating point. `Windows.Init` takes the position as a parameter.
- `marked`, `highlight.js` and the rendered HTML of answers and errors are left out, because they are foreign libraries. The renderer keeps the response as markdown or an error message.
- Hiding the response overlay on a click outside the response box (`src/js/ui/renderer.js:201-209`), scrolling the response box (`src/js/ui/renderer.js:174-180`) and the `unload` cleanup (`src/js/ui/renderer.js:231-232`) are left out, because they only touch the DOM. The overlay's visibility under the IPC handlers is modelled by `Renderer.Ui.overlay`.
- Logging (`src/js/utils/logger.js`) and the Electron bootstrap (`src/js/main.js`) are not part of this model.
- Electron's accelerator syntax and its canonicalisation are left out: two spellings of one key are different strings here. Whether Electron accepts an accelerator is a parameter.
- JavaScript numbers are integers here: NaN, floating point and number-to-string conversion are left out.
- `Inference.Answer`: a choice's `message` is either present with string `content` or absent. When it is absent, reading `content` throws V8's `TypeError`. A message that is present but has no `content`, or has a `null` one, is not modelled. The source returns `undefined` or `null` for it and does not throw. A completion whose `choices` field is absent or `null` cannot be represented either; the source fails on it with a `TypeError` reading `'0'`.
- `Shortcuts.RegisterAll`: registering the six fixed accelerators (the arrows, U and D) is assumed to succeed; Electron refuses a key another application holds, which the model does not consult.
- `Launcher.Launch`: a failing `copyFileSync` is not modelled. The copy is assumed to succeed.
- `Launcher.ExitCode`: a child that closes with `null` exits with 0, as `process.exit(null)` does.
- The `baseURL`, timeouts and other OpenAI client options are left out, because they only affect the network call.
- `Shortcuts.Load` gives the default table as a constant. The binding lemmas are proved for any table, not for the default one in particular.
- The `close-settings` IPC handler is modelled by its effect, the `closed` event of the settings window (`Session.CloseSettings`).

=== FILE: config.dfy ===
/** ConfigService: validation and defaulting of the parsed configuration object. */
module Config {
  import opened Outcomes
  import opened JsValues
  import Inference

  const MissingKeyMessage := "API key is missing in config.json"

  /** A configuration `loadConfig` can return: an object with a truthy key and model. */
  predicate Valid(c: Value) {
    c.Obj? && "apiKey" in c.fields && Truthy(c.fields["apiKey"])
    && "model" in c.fields && Truthy(c.fields["model"])
  }

  /** `loadConfig`, given what reading and parsing the file produced. */
  function Load(parsed: Result<Value>): (r: Result<Value>)
    ensures parsed.Err? ==> r == parsed
    ensures r.Ok? <==> parsed.Ok? && !parsed.value.Undefined? && !parsed.value.Null?
                       && Truthy(Field(parsed.value, "apiKey"))
    ensures (parsed.Ok? && !parsed.value.Undefined? && !parsed.value.Null?
             && !Truthy(Field(parsed.value, "apiKey"))) ==> r == Err(MissingKeyMessage)
    ensures r.Ok? ==> Valid(r.value)
    ensures r.Ok? ==> forall k :: k != "model" ==>
              ((k in r.value.fields <==> k in parsed.value.fields)
               && (k in r.value.fields ==> r.value.fields[k] == parsed.value.fields[k]))
    ensures r.Ok? && Truthy(Field(parsed.value, "model")) ==> r.value == parsed.value
    ensures r.Ok? && !Truthy(Field(parsed.value, "model")) ==>
              r.value.fields["model"] == Str(Inference.DefaultModel)
  {
    match parsed
    case Err(_) => parsed
    case Ok(c) =>
      match Get(c, "apiKey")
      case Err(e) => Err(e)
      case Ok(key) =>
        if !Truthy(key) then Err(MissingKeyMessage)
        else
          TruthyFieldMeansObject(c, "apiKey");
          if Truthy(Field(c, "model")) then Ok(c)
          else Ok(Obj(c.fields["model" := Str(Inference.DefaultModel)]))
  }

  /** The service: the configuration currently in memory. */
  datatype Service = Service(config: Value)

  /** `getConfig`. */
  function Current(s: Service): Value {
    s.config
  }

  /** `updateConfig`, given whether writing the file succeeded: on success the new object
      replaces the old one as it is, without the checks `loadConfig` makes. */
  function Update(s: Service, newConfig: Value, written: bool): (r: (Service, bool))
    ensures r.1 == written
    ensures written ==> Current(r.0) == newConfig
    ensures !written ==> r.0 == s
  {
    if written then (Service(newConfig), true) else (s, false)
  }

  /** `updateConfig` accepts what `loadConfig` would reject: any configuration without a
      truthy API key becomes current once written. */
  lemma UpdateSkipsValidation(s: Service, c: Value)
    requires !c.Undefined? && !c.Null? && !Truthy(Field(c, "apiKey"))
    ensures Load(Ok(c)) == Err(MissingKeyMessage)
    ensures Current(Update(s, c, true).0) == c
  {
  }

  /** Once `loadConfig` has succeeded, the OpenAI service's own defaulting changes nothing. */
  lemma LoadedModelIsKept(parsed: Result<Value>, attached: bool)
    requires Load(parsed).Ok?
    ensures Inference.NewService(Load(parsed).value, attached).model == Load(parsed).value.fields["model"]
  {
  }
}

=== FILE: controller.dfy ===
/** AppController: the capture session — mode, typed message, stage and images — and the
    commands that move it, each returning the new state, what it emitted and what it threw. */
module Controller {
  import opened Outcomes
  import opened JsValues
  import opened Ipc
  import Screenshots
  import Inference
  import Windows
  import Shortcuts
  import Config

  /** The controller and the services it owns. `table` is the shortcut service's table,
      `bindings` what is registered with Electron right now. */
  datatype App = App(
    multiPageMode: bool,
    userMessage: string,
    stage: Windows.Stage,
    store: Screenshots.Store,
    window: Windows.Window,
    table: Value,
    bindings: Shortcuts.Bindings,
    service: Inference.Service)

  /** The controller's stage is the one the window service was last told, and the shortcut
      table is a value the callbacks can read accelerators from. */
  predicate Valid(a: App) {
    a.window.stage == a.stage && Truthy(a.table)
  }

  /** No command changes the shortcut table or the OpenAI service. */
  predicate Keeps(a: App, b: App) {
    b.table == a.table && b.service == a.service
  }

  /** A command's result: the new state, its trace, and the message of the error it re-throws. */
  datatype Outcome = Outcome(app: App, trace: Trace, thrown: Option<string>)

  /** The constructor followed by `initialize`, given what reading and parsing `config.json`
      produced. The constructor's `loadConfig` throws on a missing or unparsable file and on a
      missing API key, and then no controller exists; otherwise the session is empty, the
      window shown at (x, y), the OpenAI service built from the loaded configuration and every
      shortcut registered. */
  function Start(parsed: Result<Value>, x: int, y: int, table: Value, parses: Shortcuts.Parser): (r: Result<App>)
    requires Truthy(table)
    ensures r.Err? <==> Config.Load(parsed).Err?
    ensures r.Err? ==> r.message == Config.Load(parsed).message
    ensures r.Ok? ==> var a := r.value;
              && Valid(a)
              && !a.multiPageMode && a.userMessage == "" && a.stage == Windows.Boot && a.store.shots == []
              && a.window.shown && a.service.attached
              && a.service.model == Config.Load(parsed).value.fields["model"]
              && a.bindings == Shortcuts.RegisterAll(table, parses)
  {
    match Config.Load(parsed)
    case Err(m) => Err(m)
    case Ok(config) =>
      Config.LoadedModelIsKept(parsed, true);
      Ok(App(false, "", Windows.Boot, Screenshots.Empty, Windows.Init(x, y), table,
             Shortcuts.RegisterAll(table, parses), Inference.NewService(config, true)))
  }

  /** The `text-input` IPC handler: the latest text replaces the message. */
  function TextInput(a: App, text: string): (r: Outcome)
    ensures r.app.userMessage == text
    ensures r.app.(userMessage := a.userMessage) == a
    ensures r.trace == [Send(UpdateInstruction(Some(Armed)))] && r.thrown == None
    ensures Valid(a) ==> Valid(r.app)
    ensures Keeps(a, r.app)
  {
    Outcome(a.(userMessage := text), Windows.Instruct(Armed), None)
  }

  /** What `processScreenshots` does with the awaited call: send the answer and move to the
      answered stage, or send the error's message and re-throw, leaving the state alone. */
  function Deliver(a: App, call: Inference.Call): (r: Outcome)
    ensures |r.trace| > 0 && r.trace[..|r.trace| - 1] == call.trace
    ensures call.result.Ok? ==>
              r.app == a.(stage := Windows.Answered, window := a.window.(stage := Windows.Answered))
              && r.trace[|r.trace| - 1] == Send(AnalysisResult(call.result.value)) && r.thrown == None
    ensures call.result.Err? ==>
              r.app == a && r.trace[|r.trace| - 1] == Send(Error(call.result.message))
              && r.thrown == Some(call.result.message)
  {
    match call.result
    case Ok(answer) =>
      var t := call.trace + [Send(AnalysisResult(answer))];
      assert t[..|call.trace|] == call.trace;
      Outcome(a.(stage := Windows.Answered, window := Windows.SetStage(a.window, Windows.Answered)), t, None)
    case Err(m) =>
      var t := call.trace + [Send(Error(m))];
      assert t[..|call.trace|] == call.trace;
      Outcome(a, t, Some(m))
  }

  /** `processScreenshots`: ask for an answer about the current images and message. */
  function Process(a: App, api: Inference.Api): (r: Outcome)
    ensures |r.trace| > 0
    ensures var reply := api(Inference.RequestFor(a.service, a.store.shots, a.userMessage));
            && (r.thrown.None? <==> Inference.WellFormed(reply))
            && (r.thrown.None? ==>
                  r.app == a.(stage := Windows.Answered, window := a.window.(stage := Windows.Answered))
                  && r.trace[|r.trace| - 1] == Send(AnalysisResult(reply.choices[0].message.value)))
            && (r.thrown.Some? ==> r.app == a && r.trace[|r.trace| - 1] == Send(Error(r.thrown.value)))
            && (reply.Rejected? ==> r.thrown == Some(reply.message))
    ensures Valid(a) ==> Valid(r.app)
    ensures Keeps(a, r.app)
  {
    Deliver(a, Inference.Process(a.service, a.store.shots, a.userMessage, api))
  }

  /** `takeSingleScreenshot`: capture, add the image, then process. A failed capture
      re-throws before anything changes; once the image is in, a failed inference keeps it. */
  function TakeSingle(a: App, grab: Result<Screenshots.Image>, api: Inference.Api): (r: Outcome)
    ensures grab.Err? ==> r.app == a && r.thrown == Some(grab.message)
    ensures grab.Ok? ==> r.app.store.shots == a.store.shots + [grab.value]
    ensures grab.Ok? ==> r.app.multiPageMode == a.multiPageMode && r.app.userMessage == a.userMessage
    ensures grab.Ok? ==>
              (r.thrown.None? <==> Inference.WellFormed(
                 api(Inference.RequestFor(a.service, a.store.shots + [grab.value], a.userMessage))))
    ensures grab.Ok? && r.thrown.None? ==> r.app.stage == Windows.Answered
    ensures r.thrown.Some? ==> r.app.stage == a.stage && r.app.window == a.window
    ensures |r.trace| > 0 && r.trace[0] == Send(RequestStarted)
    ensures grab.Err? ==> r.trace == Screenshots.CaptureShot(grab).trace
    ensures grab.Ok? ==>
              r.trace == Screenshots.CaptureShot(grab).trace
                         + Process(a.(store := Screenshots.Add(a.store, grab.value)), api).trace
    ensures Valid(a) ==> Valid(r.app)
    ensures Keeps(a, r.app)
  {
    var cap := Screenshots.CaptureShot(grab);
    match grab
    case Err(m) => Outcome(a, cap.trace, Some(m))
    case Ok(img) =>
      var p := Process(a.(store := Screenshots.Add(a.store, img)), api);
      Outcome(p.app, cap.trace + p.trace, p.thrown)
  }

  /** `handleMultiPageMode`: the first press only arms multi-page mode; every later press
      captures, adds the image and moves to the collecting stage. */
  function HandleMulti(a: App, grab: Result<Screenshots.Image>): (r: Outcome)
    ensures !a.multiPageMode ==>
              r.app == a.(multiPageMode := true) && r.trace == [Send(UpdateInstruction(Some(Armed)))]
              && r.thrown == None
    ensures a.multiPageMode && grab.Err? ==>
              r.app == a && r.thrown == Some(grab.message) && r.trace == Screenshots.CaptureShot(grab).trace
    ensures |r.trace| > 0
    ensures a.multiPageMode && grab.Ok? ==>
              r.app == a.(store := Screenshots.Add(a.store, grab.value), stage := Windows.Collecting,
                          window := a.window.(stage := Windows.Collecting))
              && r.trace == Screenshots.CaptureShot(grab).trace + [Send(UpdateInstruction(Some(Added)))]
              && r.thrown == None
    ensures Valid(a) ==> Valid(r.app)
    ensures Keeps(a, r.app)
  {
    if !a.multiPageMode then
      Outcome(a.(multiPageMode := true), Windows.Instruct(Armed), None)
    else
      var cap := Screenshots.CaptureShot(grab);
      match grab
      case Err(m) => Outcome(a, cap.trace, Some(m))
      case Ok(img) =>
        Outcome(a.(store := Screenshots.Add(a.store, img), stage := Windows.Collecting,
                   window := Windows.SetStage(a.window, Windows.Collecting)),
                cap.trace + Windows.Instruct(Added), None)
  }

  /** Delivering a call whose request signals settle settles: the answer or the error is
      sent after the last `request-finished`. */
  lemma DeliverSettles(a: App, call: Inference.Call)
    requires Settles(call.trace)
    ensures Settles(Deliver(a, call).trace)
  {
    var t := Deliver(a, call).trace;
    assert t == call.trace + [t[|t| - 1]];
    SettlesAppend(call.trace, [t[|t| - 1]]);
  }

  /** Asking for an answer finishes every request it starts, whatever the API replies. */
  lemma ProcessSettles(a: App, api: Inference.Api)
    ensures Settles(Process(a, api).trace)
  {
    Inference.ProcessSignals(a.service, a.store.shots, a.userMessage, api);
    DeliverSettles(a, Inference.Process(a.service, a.store.shots, a.userMessage, api));
  }

  /** So does a single screenshot: the capture's request, then the inference's. */
  lemma TakeSingleSettles(a: App, grab: Result<Screenshots.Image>, api: Inference.Api)
    ensures Settles(TakeSingle(a, grab, api).trace)
  {
    Screenshots.CaptureSignals(grab);
    if grab.Ok? {
      var b := a.(store := Screenshots.Add(a.store, grab.value));
      ProcessSettles(b, api);
      SettlesAppend(Screenshots.CaptureShot(grab).trace, Process(b, api).trace);
    }
  }

  /** And so does a multi-page capture, with or without an image. */
  lemma HandleMultiSettles(a: App, grab: Result<Screenshots.Image>)
    ensures Settles(HandleMulti(a, grab).trace)
  {
    var cap := Screenshots.CaptureShot(grab).trace;
    if !a.multiPageMode {
      NoStartSettles(Windows.Instruct(Armed));
    } else if grab.Ok? {
      Screenshots.CaptureSignals(grab);
      NoStartSettles(Windows.Instruct(Added));
      SettlesAppend(cap, Windows.Instruct(Added));
      assert HandleMulti(a, grab).trace == cap + Windows.Instruct(Added);
    } else {
      Screenshots.CaptureSignals(grab);
      assert HandleMulti(a, grab).trace == cap;
    }
  }

  /** `finalizeMultiPageMode`: process what was collected; nothing is cleared. */
  function Finalize(a: App, api: Inference.Api): (r: Outcome)
    ensures r.app.store == a.store && r.app.multiPageMode == a.multiPageMode
    ensures r.app.userMessage == a.userMessage
    ensures |r.trace| > 0
    ensures var reply := api(Inference.RequestFor(a.service, a.store.shots, a.userMessage));
            && (r.thrown.None? <==> Inference.WellFormed(reply))
            && (r.thrown.None? ==>
                  r.app == a.(stage := Windows.Answered, window := a.window.(stage := Windows.Answered))
                  && r.trace[|r.trace| - 1] == Send(AnalysisResult(reply.choices[0].message.value)))
            && (reply.Rejected? ==> r.thrown == Some(reply.message))
    ensures r.thrown.Some? ==> r.app == a && r.trace[|r.trace| - 1] == Send(Error(r.thrown.value))
    ensures Valid(a) ==> Valid(r.app)
    ensures Keeps(a, r.app)
  {
    Process(a, api)
  }

  /** `resetProcess`: the only command that empties the image list. */
  function Reset(a: App): (r: Outcome)
    ensures r.app.store.shots == [] && !r.app.multiPageMode && r.app.userMessage == ""
    ensures r.app.stage == Windows.Boot && r.app.window == a.window.(stage := Windows.Boot)
    ensures r.app.(store := a.store, multiPageMode := a.multiPageMode, userMessage := a.userMessage,
                   stage := a.stage, window := a.window) == a
    ensures r.trace == [Send(ClearResult), Send(UpdateInstruction(Some(Help)))] && r.thrown == None
    ensures Send(RequestStarted) !in r.trace
    ensures Valid(a) ==> Valid(r.app)
    ensures Keeps(a, r.app)
  {
    Outcome(a.(store := Screenshots.Clear(a.store), multiPageMode := false, userMessage := "",
               stage := Windows.Boot, window := Windows.SetStage(a.window, Windows.Boot)),
            [Send(ClearResult)] + Windows.Instruct(Help), None)
  }

  /** `showTextInput`: only in multi-page mode, the window is shown natively (the window
      service's own flag is not updated) and the renderer asked for the input field. */
  function ShowTextInput(a: App): (r: Outcome)
    ensures r.app == a && r.thrown == None
    ensures a.multiPageMode ==> r.trace == [ShowNative, Send(Ipc.ShowTextInput)]
    ensures !a.multiPageMode ==> r.trace == []
    ensures Send(RequestStarted) !in r.trace
    ensures Valid(a) ==> Valid(r.app)
    ensures Keeps(a, r.app)
  {
    Outcome(a, if a.multiPageMode then [ShowNative, Send(Ipc.ShowTextInput)] else [], None)
  }

  /** `showWindow`: the window service's guarded show, then every shortcut registered again,
      even when the guard ignored the request. */
  function ShowWindow(a: App, parses: Shortcuts.Parser): (r: Outcome)
    requires Truthy(a.table)
    ensures r.app == a.(window := Windows.Show(a.window).window, bindings := Shortcuts.RegisterAll(a.table, parses))
    ensures r.trace == Windows.Show(a.window).trace && r.thrown == None
    ensures Send(RequestStarted) !in r.trace
    ensures Valid(a) ==> Valid(r.app)
    ensures Keeps(a, r.app)
  {
    var s := Windows.Show(a.window);
    Outcome(a.(window := s.window, bindings := Shortcuts.RegisterAll(a.table, parses)), s.trace, None)
  }

  /** `hideWindow`: the guarded hide, then only the shortcut that shows the window again. */
  function HideWindow(a: App, parses: Shortcuts.Parser): (r: Outcome)
    requires Truthy(a.table)
    ensures r.app == a.(window := Windows.Hide(a.window).window, bindings := Shortcuts.RegisterShowOnly(a.table, parses))
    ensures r.trace == Windows.Hide(a.window).trace && r.thrown == None
    ensures Send(RequestStarted) !in r.trace
    ensures Valid(a) ==> Valid(r.app)
    ensures Keeps(a, r.app)
  {
    var s := Windows.Hide(a.window);
    Outcome(a.(window := s.window, bindings := Shortcuts.RegisterShowOnly(a.table, parses)), s.trace, None)
  }

  /** `openSettings`, `moveWindow`, `centerWindow`, `scrollWindow` and `quitApplication`:
      window service calls that leave the session alone. */
  function OpenSettings(a: App): (r: Outcome)
    ensures r.app == a.(window := Windows.OpenSettings(a.window).window) && r.thrown == None
    ensures r.trace == [if a.window.settingsOpen then FocusSettingsWindow else OpenSettingsWindow]
    ensures Send(RequestStarted) !in r.trace
    ensures Valid(a) ==> Valid(r.app)
    ensures Keeps(a, r.app)
  {
    var s := Windows.OpenSettings(a.window);
    Outcome(a.(window := s.window), s.trace, None)
  }

  function MoveWindow(a: App, direction: string): (r: Outcome)
    ensures r.app == a.(window := Windows.Move(a.window, direction)) && r.trace == [] && r.thrown == None
    ensures Send(RequestStarted) !in r.trace
    ensures Valid(a) ==> Valid(r.app)
    ensures Keeps(a, r.app)
  {
    Outcome(a.(window := Windows.Move(a.window, direction)), [], None)
  }

  function CenterWindow(a: App, screenWidth: int, screenHeight: int, width: int, height: int): (r: Outcome)
    ensures r.app == a.(window := Windows.Center(a.window, screenWidth, screenHeight, width, height))
    ensures r.trace == [] && r.thrown == None
    ensures Send(RequestStarted) !in r.trace
    ensures Valid(a) ==> Valid(r.app)
    ensures Keeps(a, r.app)
  {
    Outcome(a.(window := Windows.Center(a.window, screenWidth, screenHeight, width, height)), [], None)
  }

  function ScrollWindow(a: App, amount: int): (r: Outcome)
    ensures r.app == a && r.trace == [Send(Ipc.ScrollWindow(amount))] && r.thrown == None
    ensures Send(RequestStarted) !in r.trace
    ensures Valid(a) ==> Valid(r.app)
    ensures Keeps(a, r.app)
  {
    Outcome(a, [Send(Ipc.ScrollWindow(amount))], None)
  }

  function Quit(a: App): (r: Outcome)
    ensures r.app == a && r.trace == [QuitApp] && r.thrown == None
    ensures Send(RequestStarted) !in r.trace
    ensures Valid(a) ==> Valid(r.app)
    ensures Keeps(a, r.app)
  {
    Outcome(a, [QuitApp], None)
  }
}

=== FILE: hotkeys.dfy ===
/** The callbacks `registerAllShortcuts` and `registerShowWindowShortcut` attach to each
    accelerator: which controller command a press runs, with every error caught. */
module Hotkeys {
  import opened Outcomes
  import opened JsValues
  import opened Ipc
  import Screenshots
  import Inference
  import Windows
  import Shortcuts
  import Controller

  /** What the collaborators produce while a callback runs: the screen grab, the API's answers,
      which accelerators Electron accepts, and the work area and window size for centring. */
  datatype Env = Env(
    grab: Result<Screenshots.Image>,
    api: Inference.Api,
    parses: Shortcuts.Parser,
    screenWidth: int,
    screenHeight: int,
    width: int,
    height: int)

  /** Running the callback of a command. The capture and multi-capture callbacks catch what
      the controller re-throws, so no press ever ends in an error. */
  function Press(a: Controller.App, cmd: Shortcuts.Command, env: Env): (r: Controller.Outcome)
    requires Controller.Valid(a)
    ensures r.thrown == None
    ensures Controller.Valid(r.app) && Controller.Keeps(a, r.app)

  {
    match cmd
    case OpenSettings => Caught(Controller.OpenSettings(a))
    case Capture =>
      if a.multiPageMode then Caught(Controller.Finalize(a, env.api)) else Caught(Controller.TakeSingle(a, env.grab, env.api))
    case MultiCapture => Caught(Controller.HandleMulti(a, env.grab))
    case TextInput => Caught(Controller.ShowTextInput(a))
    case Reset => Caught(Controller.Reset(a))
    case Toggle =>
      if a.window.shown then Caught(Controller.HideWindow(a, env.parses)) else Caught(Controller.ShowWindow(a, env.parses))
    case Quit => Caught(Controller.Quit(a))
    case Move(direction) => Caught(Controller.MoveWindow(a, direction))
    case Center => Caught(Controller.CenterWindow(a, env.screenWidth, env.screenHeight, env.width, env.height))
    case Scroll(amount) => Caught(Controller.ScrollWindow(a, amount))
    case ShowOnly => Caught(Controller.ShowWindow(a, env.parses))
  }

  /** A callback's `try`/`catch`: whatever was thrown is logged and dropped. */
  function Caught(o: Controller.Outcome): Controller.Outcome {
    o.(thrown := None)
  }

  /** Only the two capture hotkeys start requests. */
  lemma QuietCommands(a: Controller.App, cmd: Shortcuts.Command, env: Env)
    requires Controller.Valid(a) && !cmd.Capture? && !cmd.MultiCapture?
    ensures Send(RequestStarted) !in Press(a, cmd, env).trace
  {
  }

  /** A press never leaves the busy indicator on: every `request-started` it sends is
      followed by a `request-finished`. */
  lemma PressSettles(a: Controller.App, cmd: Shortcuts.Command, env: Env)
    requires Controller.Valid(a)
    ensures Settles(Press(a, cmd, env).trace)
  {
    match cmd {
      case Capture =>
        if a.multiPageMode {
          Controller.ProcessSettles(a, env.api);
        } else {
          Controller.TakeSingleSettles(a, env.grab, env.api);
        }
      case MultiCapture => Controller.HandleMultiSettles(a, env.grab);
      case _ =>
        QuietCommands(a, cmd, env);
        NoStartSettles(Press(a, cmd, env).trace);
    }
  }

  /** Electron delivering a press of `accelerator`: the bound callback runs; an accelerator
      that is not registered does nothing. */
  function Fire(a: Controller.App, accelerator: string, env: Env): (r: Controller.Outcome)
    requires Controller.Valid(a)
    ensures accelerator !in a.bindings ==> r == Controller.Outcome(a, [], None)
    ensures accelerator in a.bindings ==> r == Press(a, a.bindings[accelerator], env)
  {
    if accelerator in a.bindings then Press(a, a.bindings[accelerator], env) else Controller.Outcome(a, [], None)
  }

  /** The capture hotkey finalizes in multi-page mode, which keeps the images, and takes a
      single screenshot otherwise, which adds the grabbed image. */
  lemma CaptureDispatch(a: Controller.App, env: Env)
    requires Controller.Valid(a)
    ensures var r := Press(a, Shortcuts.Capture, env);
            && (a.multiPageMode ==> r.app.store == a.store && r.app.multiPageMode)
            && (!a.multiPageMode && env.grab.Ok? ==> r.app.store.shots == a.store.shots + [env.grab.value])
            && (!a.multiPageMode && env.grab.Err? ==> r.app == a)
  {
  }

  /** The toggle hotkey hides a shown window, leaving only the toggle accelerator bound to
      showing it, and shows a hidden one with every shortcut bound again. */
  lemma ToggleDispatch(a: Controller.App, env: Env)
    requires Controller.Valid(a)
    ensures var r := Press(a, Shortcuts.Toggle, env);
            && (a.window.shown ==>
                  r.app.window == Windows.Hide(a.window).window
                  && r.app.bindings == Shortcuts.RegisterShowOnly(a.table, env.parses))
            && (!a.window.shown ==>
                  r.app.window == Windows.Show(a.window).window
                  && r.app.bindings == Shortcuts.RegisterAll(a.table, env.parses))
  {
  }

  /** With every shortcut registered, the fixed scroll accelerators scroll the answer up and
      down by 100 pixels, unless a configured shortcut claimed the same string first. */
  lemma ScrollKeys(a: Controller.App, env: Env)
    requires Controller.Valid(a)
    requires Shortcuts.Unclaimed(a.table, "CommandOrControl+U") && Shortcuts.Unclaimed(a.table, "CommandOrControl+D")
    ensures var b := a.(bindings := Shortcuts.RegisterAll(a.table, env.parses));
            && Fire(b, "CommandOrControl+U", env) == Controller.Outcome(b, [Send(ScrollWindow(-100))], None)
            && Fire(b, "CommandOrControl+D", env) == Controller.Outcome(b, [Send(ScrollWindow(100))], None)
  {
    var b := a.(bindings := Shortcuts.RegisterAll(a.table, env.parses));
    assert Shortcuts.Slots[12] == Shortcuts.Fixed("CommandOrControl+U", Shortcuts.Scroll(-100));
    assert Shortcuts.Slots[13] == Shortcuts.Fixed("CommandOrControl+D", Shortcuts.Scroll(100));
    Shortcuts.FixedSlotKeepsCommand(a.table, env.parses, 12);
    Shortcuts.FixedSlotKeepsCommand(a.table, env.parses, 13);
    ScrollPress(b, env, -100);
    ScrollPress(b, env, 100);
  }

  /** The scroll callback only forwards the amount to the renderer. */
  lemma ScrollPress(a: Controller.App, env: Env, amount: int)
    requires Controller.Valid(a)
    ensures Press(a, Shortcuts.Scroll(amount), env) == Controller.Outcome(a, [Send(ScrollWindow(amount))], None)
  {
  }

  /** While the window is hidden, the only accelerator still registered shows it: once the
      debounce timer has fired, pressing it brings the window back with every shortcut bound. */
  lemma HiddenKeysOnlyShow(a: Controller.App, env: Env, accelerator: string)
    requires Controller.Valid(a) && a.window.shown && !a.window.toggling
    ensures var h := Press(a, Shortcuts.Toggle, env).app;
            var later := h.(window := Windows.TimerFired(h.window));
            && !h.window.shown
            && (accelerator in h.bindings ==> h.bindings[accelerator] == Shortcuts.ShowOnly)
            && (accelerator in h.bindings ==>
                  Fire(later, accelerator, env).app.window.shown
                  && Fire(later, accelerator, env).app.bindings == Shortcuts.RegisterAll(a.table, env.parses))
            && (accelerator !in h.bindings ==> Fire(later, accelerator, env).app == later)
  {
    ToggleDispatch(a, env);
    var h := Press(a, Shortcuts.Toggle, env).app;
    var later := h.(window := Windows.TimerFired(h.window));
    if accelerator in h.bindings {
      ShowOnlyShows(later, env, accelerator);
    }
  }

  /** The toggle accelerator registered while hidden shows the window and binds everything. */
  lemma ShowOnlyShows(b: Controller.App, env: Env, accelerator: string)
    requires Controller.Valid(b) && !b.window.shown && !b.window.toggling
    requires accelerator in b.bindings && b.bindings[accelerator] == Shortcuts.ShowOnly
    ensures Fire(b, accelerator, env).app.window.shown
    ensures Fire(b, accelerator, env).app.bindings == Shortcuts.RegisterAll(b.table, env.parses)
  {
    assert Fire(b, accelerator, env) == Press(b, Shortcuts.ShowOnly, env);
    assert Press(b, Shortcuts.ShowOnly, env) == Controller.ShowWindow(b, env.parses);
  }

  /** The show-only binding runs `showWindow`: the window service may refuse the show, but
      every shortcut is registered again either way. */
  lemma ShowOnlyRebinds(b: Controller.App, env: Env, accelerator: string)
    requires Controller.Valid(b)
    requires accelerator in b.bindings && b.bindings[accelerator] == Shortcuts.ShowOnly
    ensures Fire(b, accelerator, env).app.window == Windows.Show(b.window).window
    ensures Fire(b, accelerator, env).app.bindings == Shortcuts.RegisterAll(b.table, env.parses)
  {
    assert Fire(b, accelerator, env) == Press(b, Shortcuts.ShowOnly, env);
    assert Press(b, Shortcuts.ShowOnly, env) == Controller.ShowWindow(b, env.parses);
  }

  /** Pressing the toggle accelerator again before the debounce timer has fired leaves the
      window hidden, yet `showWindow` has registered every shortcut again: a hidden window with
      all hotkeys live. */
  lemma HiddenButAllBound(a: Controller.App, env: Env, accelerator: string)
    requires Controller.Valid(a) && a.window.shown && !a.window.toggling
    ensures var h := Press(a, Shortcuts.Toggle, env).app;
            accelerator in h.bindings ==>
              && !Fire(h, accelerator, env).app.window.shown
              && Fire(h, accelerator, env).app.bindings == Shortcuts.RegisterAll(a.table, env.parses)
  {
    ToggleDispatch(a, env);
    var h := Press(a, Shortcuts.Toggle, env).app;
    if accelerator in h.bindings {
      assert h.window.toggling && !h.window.shown;
      ShowOnlyRebinds(h, env, accelerator);
    }
  }
}

=== FILE: inference.dfy ===
/** OpenAIService: the chat request built from the screenshots and the signals around the call. */
module Inference {
  import opened Outcomes
  import opened JsValues
  import opened Ipc
  import opened Screenshots

  const DefaultPrompt := "Can you solve the question for me and give the final answer/code?"
  const DefaultModel := "gpt-4o-mini"
  const DataUrlPrefix := "data:image/png;base64,"
  const MaxCompletionTokens := 5000

  /** One element of the user message's `content` list. */
  datatype Part = Text(text: string) | ImageUrl(url: string)

  /** The body of `chat.completions.create`: one user message carrying `content`. */
  datatype Request = Request(model: Value, content: seq<Part>, maxCompletionTokens: int)

  /** A choice of the completion; `message` is None when the API left it out. */
  datatype Choice = Choice(message: Option<string>)

  /** What the awaited API call yields: a rejection, or a completion with its choices. */
  datatype Reply = Rejected(message: string) | Completion(choices: seq<Choice>)

  /** The client: whatever the hosted model answers to a request. */
  type Api = Request -> Reply

  /** The service as constructed: its model setting and whether its window has `webContents`. */
  datatype Service = Service(model: Value, attached: bool)

  /** The constructor's defaulting: a falsy `config.model` becomes the default model. */
  function NewService(config: Value, attached: bool): (s: Service)
    requires !config.Undefined? && !config.Null?
    ensures Truthy(s.model)
    ensures Truthy(Field(config, "model")) ==> s.model == Field(config, "model")
    ensures !Truthy(Field(config, "model")) ==> s.model == Str(DefaultModel)
    ensures s.attached == attached
  {
    var m := Field(config, "model");
    Service(if Truthy(m) then m else Str(DefaultModel), attached)
  }

  /** One `image_url` part per screenshot, in order. */
  function ImageParts(shots: seq<Image>): (parts: seq<Part>)
    ensures |parts| == |shots|
    ensures forall i :: 0 <= i < |shots| ==> parts[i] == ImageUrl(DataUrlPrefix + shots[i])
  {
    if shots == [] then [] else [ImageUrl(DataUrlPrefix + shots[0])] + ImageParts(shots[1..])
  }

  /** The `content` list: the prompt text first, then the images. */
  function Content(shots: seq<Image>, userMessage: string): (parts: seq<Part>)
    ensures |parts| == 1 + |shots|
    ensures parts[0] == Text(if userMessage != "" then userMessage else DefaultPrompt)
    ensures forall i :: 0 <= i < |shots| ==> parts[1 + i] == ImageUrl(DataUrlPrefix + shots[i])
  {
    [Text(if userMessage != "" then userMessage else DefaultPrompt)] + ImageParts(shots)
  }

  /** The request the service sends for these screenshots and this message. */
  function RequestFor(s: Service, shots: seq<Image>, userMessage: string): Request {
    Request(s.model, Content(shots, userMessage), MaxCompletionTokens)
  }

  /** A reply from which `response.choices[0].message.content` can be read. */
  predicate WellFormed(reply: Reply) {
    reply.Completion? && |reply.choices| > 0 && reply.choices[0].message.Some?
  }

  /** The TypeError V8 raises when reading the answer out of a malformed completion. */
  function MalformedError(reply: Reply): string
    requires reply.Completion? && !WellFormed(reply)
  {
    if |reply.choices| == 0 then "Cannot read properties of undefined (reading 'message')"
    else "Cannot read properties of undefined (reading 'content')"
  }

  /** The trace and the result of one `processScreenshots` call. */
  datatype Call = Call(trace: Trace, result: Result<string>)

  /** The signals `processScreenshots` sends around the call when its window has
      `webContents`: `request-started`, then `request-finished` once or twice. */
  function Signals(attached: bool, finishes: nat): (t: Trace)
    requires 1 <= finishes <= 2
    ensures !attached <==> t == []
    ensures attached ==> |t| == 1 + finishes && t[0] == Send(RequestStarted)
    ensures forall i :: 0 < i < |t| ==> t[i] == Send(RequestFinished)
  {
    if !attached then []
    else if finishes == 1 then [Send(RequestStarted), Send(RequestFinished)]
    else [Send(RequestStarted), Send(RequestFinished), Send(RequestFinished)]
  }

  /** `processScreenshots`: signal start, call the API, signal the end, return the answer.
      A malformed completion throws after the success path's `request-finished` was already
      sent, and the catch block sends a second one. */
  function Process(s: Service, shots: seq<Image>, userMessage: string, api: Api): (r: Call)
    ensures r.result.Ok? <==> WellFormed(api(RequestFor(s, shots, userMessage)))
    ensures r.result.Ok? ==> r.result.value == api(RequestFor(s, shots, userMessage)).choices[0].message.value
    ensures api(RequestFor(s, shots, userMessage)).Rejected? ==>
              r.result == Err(api(RequestFor(s, shots, userMessage)).message)
    ensures !s.attached <==> r.trace == []
    ensures s.attached ==> r.trace[0] == Send(RequestStarted) && r.trace[|r.trace| - 1] == Send(RequestFinished)
  {
    var reply := api(RequestFor(s, shots, userMessage));
    Call(Signals(s.attached, if reply.Completion? && !WellFormed(reply) then 2 else 1), Answer(reply))
  }

  /** What `processScreenshots` makes of the reply: the answer's text, or the message of the
      error the call rejected with or the reading of a malformed completion raised. */
  function Answer(reply: Reply): (r: Result<string>)
    ensures r.Ok? <==> WellFormed(reply)
    ensures r.Ok? ==> r.value == reply.choices[0].message.value
    ensures reply.Rejected? ==> r == Err(reply.message)
    ensures reply.Completion? && !WellFormed(reply) ==> r == Err(MalformedError(reply))
  {
    match reply
    case Rejected(m) => Err(m)
    case Completion(choices) =>
      if WellFormed(reply) then Ok(choices[0].message.value) else Err(MalformedError(reply))
  }

  /** The signals bracket: one `request-started`, then `finishes` copies of
      `request-finished`, so the busy indicator is switched off again. */
  lemma SignalsCount(attached: bool, finishes: nat)
    requires 1 <= finishes <= 2
    ensures var t := Signals(attached, finishes);
            && Started(t) == (if attached then 1 else 0)
            && Finished(t) == (if attached then finishes else 0)
            && Settles(t)
  {
    if attached && finishes == 2 {
      assert multiset(Signals(attached, finishes)) ==
             multiset{Send(RequestStarted), Send(RequestFinished), Send(RequestFinished)};
    }
  }

  /** A call with `webContents` starts one request and finishes it once, or twice when the
      completion is malformed; every start is finished. */
  lemma ProcessSignals(s: Service, shots: seq<Image>, userMessage: string, api: Api)
    ensures var t := Process(s, shots, userMessage, api).trace;
            var reply := api(RequestFor(s, shots, userMessage));
            && Started(t) == (if s.attached then 1 else 0)
            && Finished(t) == (if !s.attached then 0 else if reply.Completion? && !WellFormed(reply) then 2 else 1)
            && Settles(t)
  {
    var reply := api(RequestFor(s, shots, userMessage));
    SignalsCount(s.attached, if reply.Completion? && !WellFormed(reply) then 2 else 1);
  }
}

=== FILE: ipc.dfy ===
/** What the main process does that the outside world can observe: messages sent to the
    renderer over IPC and native window actions, in emission order. */
module Ipc {
  import opened Outcomes

  /** Channels `webContents.send` uses, with their payloads. */
  datatype Msg =
    | RequestStarted
    | RequestFinished
    | HideInstruction
    | UpdateInstruction(instruction: Option<Note>)   // None: sent with no argument
    | ShowApp
    | HideApp
    | AnalysisResult(result: string)
    | Error(message: string)
    | ClearResult
    | ShowTextInput
    | ScrollWindow(amount: int)

  /** The only instruction texts the main process sends: multi-page mode armed, an image
      added in multi-page mode, and the help line after a reset. */
  datatype Note = Armed | Added | Help

  const ArmedText := "Multi-mode: Ctrl+Shift+A to add, Ctrl+Shift+I to add text, Ctrl+Shift+S to finalize"
  const AddedText := "Multi-mode: Ctrl+Shift+A to add, Ctrl+I to add text, Ctrl+Shift+S to finalize"
  const HelpText := "Ctrl+Shift+S: Screenshot | Ctrl+Shift+A: Multi-mode |  Ctrl+Shift+W: Hide Window | Ctrl+Shift+Q: Close"

  /** The text of each instruction. */
  function NoteText(n: Note): string {
    match n
    case Armed => ArmedText
    case Added => AddedText
    case Help => HelpText
  }

  /** One observable action of the main process. */
  datatype Event =
    | Send(msg: Msg)
    | ShowNative            // BrowserWindow.show()
    | HideNative            // BrowserWindow.hide()
    | OpenSettingsWindow
    | FocusSettingsWindow
    | QuitApp

  type Trace = seq<Event>

  /** Number of occurrences of `e` in `t`. */
  function Count(t: Trace, e: Event): nat {
    multiset(t)[e]
  }

  /** Number of `request-started` signals in a trace. */
  function Started(t: Trace): nat {
    Count(t, Send(RequestStarted))
  }

  /** Number of `request-finished` signals in a trace. */
  function Finished(t: Trace): nat {
    Count(t, Send(RequestFinished))
  }

  /** Read backwards from the end, `t` shows a `request-finished` before any
      `request-started`: the busy indicator a trace switches on is switched off again
      before it ends. */
  predicate Settles(t: Trace)
    decreases |t|
  {
    t == [] || t[|t| - 1] == Send(RequestFinished)
    || (t[|t| - 1] != Send(RequestStarted) && Settles(t[..|t| - 1]))
  }

  /** `Settles` means what it says: every `request-started` is followed, later in the
      trace, by a `request-finished`. */
  lemma {:induction false} SettlesMeaning(t: Trace)
    ensures Settles(t) <==>
              forall i :: 0 <= i < |t| && t[i] == Send(RequestStarted) ==>
                exists j :: i < j < |t| && t[j] == Send(RequestFinished)
    decreases |t|
  {
    if t != [] {
      var n := |t| - 1;
      var init := t[..n];
      SettlesMeaning(init);
      if t[n] == Send(RequestFinished) {
        forall i | 0 <= i < |t| && t[i] == Send(RequestStarted)
          ensures exists j :: i < j < |t| && t[j] == Send(RequestFinished)
        {
          assert i < n;
        }
      } else if t[n] == Send(RequestStarted) {
        assert !Settles(t);
      } else {
        if Settles(init) {
          forall i | 0 <= i < |t| && t[i] == Send(RequestStarted)
            ensures exists j :: i < j < |t| && t[j] == Send(RequestFinished)
          {
            assert init[i] == t[i];
            var j :| i < j < |init| && init[j] == Send(RequestFinished);
            assert t[j] == init[j];
          }
        } else {
          var i :| 0 <= i < |init| && init[i] == Send(RequestStarted)
                   && !(exists j :: i < j < |init| && init[j] == Send(RequestFinished));
          assert t[i] == Send(RequestStarted);
          forall j | i < j < |t| ensures t[j] != Send(RequestFinished) {
            if j < n { assert t[j] == init[j]; }
          }
        }
      }
    }
  }

  lemma {:induction false} SettlesAppend(a: Trace, b: Trace)
    requires Settles(a) && Settles(b)
    ensures Settles(a + b)
    decreases |b|
  {
    if b == [] {
      assert a + b == a;
    } else {
      var t := a + b;
      assert t[|t| - 1] == b[|b| - 1];
      if b[|b| - 1] != Send(RequestFinished) {
        assert t[..|t| - 1] == a + b[..|b| - 1];
        SettlesAppend(a, b[..|b| - 1]);
      }
    }
  }

  /** A trace that starts no request settles. */
  lemma {:induction false} NoStartSettles(t: Trace)
    requires Send(RequestStarted) !in t
    ensures Settles(t)
    decreases |t|
  {
    if t != [] {
      var n := |t| - 1;
      assert forall e :: e in t[..n] ==> e in t;
      NoStartSettles(t[..n]);
    }
  }
}

=== FILE: js_text.dfy ===
/** `String.prototype.trim` over `seq<char>`. */
module JsText {

  /** The characters ECMAScript counts as WhiteSpace or LineTerminator, the set `trim` removes. */
  predicate IsSpace(c: char) {
    || c == ' ' || c == '\t' || c == '\n' || c == '\r'
    || c == '\U{000B}' || c == '\U{000C}' || c == '\U{00A0}' || c == '\U{FEFF}'
    || c == '\U{1680}' || ('\U{2000}' <= c <= '\U{200A}')
    || c == '\U{2028}' || c == '\U{2029}' || c == '\U{202F}' || c == '\U{205F}' || c == '\U{3000}'
  }

  predicate AllSpace(s: string) {
    forall k :: 0 <= k < |s| ==> IsSpace(s[k])
  }

  /** Number of leading white-space characters. */
  function LeadingSpace(s: string): (n: nat)
    ensures n <= |s|
    ensures forall k :: 0 <= k < n ==> IsSpace(s[k])
    ensures n < |s| ==> !IsSpace(s[n])
  {
    if |s| > 0 && IsSpace(s[0]) then 1 + LeadingSpace(s[1..]) else 0
  }

  /** Number of trailing white-space characters. */
  function TrailingSpace(s: string): (n: nat)
    ensures n <= |s|
    ensures forall k :: |s| - n <= k < |s| ==> IsSpace(s[k])
    ensures n < |s| ==> !IsSpace(s[|s| - 1 - n])
  {
    if |s| > 0 && IsSpace(s[|s| - 1]) then 1 + TrailingSpace(s[..|s| - 1]) else 0
  }

  /** `s.trim()`: the longest infix of `s` that neither starts nor ends with white space,
      obtained by removing white space only. */
  function Trim(s: string): (t: string)
    ensures |t| <= |s|
    ensures t != [] ==> !IsSpace(t[0]) && !IsSpace(t[|t| - 1])
    ensures exists lo :: 0 <= lo <= |s| - |t| && t == s[lo..lo + |t|]
                         && AllSpace(s[..lo]) && AllSpace(s[lo + |t|..])
  {
    var lo := LeadingSpace(s);
    assert AllSpace(s[..lo]) by {
      forall k | 0 <= k < lo ensures IsSpace(s[..lo][k]) {
        assert s[..lo][k] == s[k];
      }
    }
    if lo == |s| then
      assert s[lo..] == [];
      assert 0 <= lo <= |s| - 0 && [] == s[lo..lo + 0] && AllSpace(s[..lo]) && AllSpace(s[lo + 0..]);
      []
    else
      var hi := |s| - TrailingSpace(s);
      assert lo < hi;
      var t := s[lo..hi];
      assert AllSpace(s[hi..]) by {
        forall k | 0 <= k < |s[hi..]| ensures IsSpace(s[hi..][k]) {
          assert s[hi..][k] == s[hi + k];
        }
      }
      assert 0 <= lo <= |s| - |t| && t == s[lo..lo + |t|] && AllSpace(s[..lo]) && AllSpace(s[lo + |t|..]);
      t
  }

  /** A string trims to empty exactly when it is all white space — the test behind
      `accelerator.trim() !== ''` and the renderer's `if (text)` after trimming. */
  lemma TrimEmptyIff(s: string)
    ensures Trim(s) == [] <==> AllSpace(s)
  {
    var lo := LeadingSpace(s);
    if lo < |s| {
      assert !IsSpace(s[lo]);
      assert Trim(s) != [];
    }
  }

  /** Trimming is idempotent. */
  lemma TrimIdempotent(s: string)
    ensures Trim(Trim(s)) == Trim(s)
  {
    var t := Trim(s);
    if t != [] {
      assert LeadingSpace(t) == 0;
      assert TrailingSpace(t) == 0;
      assert t[0..|t|] == t;
    }
  }
}

=== FILE: js_values.dfy ===
/** The JavaScript values that flow through configuration and settings objects. */
module JsValues {
  import opened Outcomes

  /** A parsed JSON value, plus `Undefined` for a property that is not there.
      Numbers are integers here: the files only ever hold strings, and NaN is not modelled. */
  datatype Value =
    | Undefined
    | Null
    | Bool(b: bool)
    | Num(n: int)
    | Str(s: string)
    | Arr(items: seq<Value>)
    | Obj(fields: map<string, Value>)

  /** JavaScript truthiness: `undefined`, `null`, `false`, `0` and `""` are falsy. */
  predicate Truthy(v: Value) {
    match v
    case Undefined => false
    case Null => false
    case Bool(b) => b
    case Num(n) => n != 0
    case Str(s) => s != ""
    case Arr(_) => true
    case Obj(_) => true
  }

  /** The message V8 puts on the TypeError raised by `v.key` when `v` is null or undefined. */
  function ReadError(v: Value, key: string): string
    requires v.Undefined? || v.Null?
  {
    "Cannot read properties of " + (if v.Null? then "null" else "undefined") + " (reading '" + key + "')"
  }

  /** `v.key`: throws on null and undefined, yields `undefined` for a key an object lacks and
      for every non-object (the keys the program reads are never built-in properties). */
  function Get(v: Value, key: string): (r: Result<Value>)
    ensures r.Err? <==> v.Undefined? || v.Null?
    ensures v.Obj? && key in v.fields ==> r == Ok(v.fields[key])
    ensures r.Ok? && r.value != Undefined ==> v.Obj? && key in v.fields
  {
    match v
    case Undefined => Err(ReadError(v, key))
    case Null => Err(ReadError(v, key))
    case Obj(fields) => if key in fields then Ok(fields[key]) else Ok(Undefined)
    case _ => Ok(Undefined)
  }

  /** `v.key`, for a receiver already known not to be null or undefined. */
  function Field(v: Value, key: string): Value
    requires !v.Undefined? && !v.Null?
  {
    Get(v, key).value
  }

  /** A key is truthy on `v` only if `v` is an object holding it: the guard every
      `if (!config.apiKey)` in the program relies on. */
  lemma TruthyFieldMeansObject(v: Value, key: string)
    requires !v.Undefined? && !v.Null?
    requires Truthy(Field(v, key))
    ensures v.Obj? && key in v.fields && Truthy(v.fields[key])
  {
  }
}

=== FILE: launcher.dfy ===
/** `start.js`: the launcher that copies the template configuration, checks the API key and
    starts Electron. */
module Launcher {
  import opened Outcomes
  import opened JsValues
  import Config

  const PlaceholderKey := "YOUR_OPENAI_API_KEY"

  /** The error `readFileSync` raises for a missing file. */
  const MissingFile := "ENOENT: no such file or directory"

  /** How the launcher process ends: whether it copied the template, whether it started
      Electron, and its exit code. */
  datatype Exit = Exit(copied: bool, launched: bool, code: int)

  /** The exit code `process.exit(code)` gives for the child's `close` code; a child killed
      by a signal closes with `null`, which exits with 0. */
  function ExitCode(child: Option<int>): int {
    if child.Some? then child.value else 0
  }

  /** The launcher, given whether `config.json` and the template exist, what reading and
      parsing `config.json` produces when it exists, and the code the Electron child closes
      with. */
  function Launch(configExists: bool, templateExists: bool, read: Result<Value>, child: Option<int>): (r: Exit)
    ensures r.copied <==> !configExists && templateExists
    ensures r.copied ==> !r.launched && r.code == 0
    ensures r.launched <==>
              configExists && read.Ok? && !read.value.Undefined? && !read.value.Null?
              && Truthy(Field(read.value, "apiKey")) && Field(read.value, "apiKey") != Str(PlaceholderKey)
    ensures r.launched ==> !r.copied && r.code == ExitCode(child)
    ensures !r.copied && !r.launched ==>
              (r.code == 1 <==> !configExists || read.Err? || read.value.Undefined? || read.value.Null?)
    ensures !r.copied && !r.launched ==> r.code == 0 || r.code == 1
  {
    if !configExists && templateExists then Exit(true, false, 0)
    else
      var contents := if configExists then read else Err(MissingFile);
      match contents
      case Err(_) => Exit(false, false, 1)
      case Ok(config) =>
        match Get(config, "apiKey")
        case Err(_) => Exit(false, false, 1)
        case Ok(key) =>
          if !Truthy(key) || key == Str(PlaceholderKey) then Exit(false, false, 0)
          else Exit(false, true, ExitCode(child))
  }

  /** Whenever the launcher starts the application, the application's own `loadConfig` accepts
      the same file: the launcher's check is at least as strict. */
  lemma LaunchedConfigLoads(configExists: bool, templateExists: bool, read: Result<Value>, child: Option<int>)
    requires Launch(configExists, templateExists, read, child).launched
    ensures Config.Load(read).Ok?
  {
  }

  /** It is strictly stricter: the template's placeholder key passes `loadConfig` but keeps
      the launcher from starting the application. */
  lemma PlaceholderRefused(fields: map<string, Value>, child: Option<int>)
    requires "apiKey" in fields && fields["apiKey"] == Str(PlaceholderKey)
    ensures Config.Load(Ok(Obj(fields))).Ok?
    ensures Launch(true, true, Ok(Obj(fields)), child) == Exit(false, false, 0)
  {
  }
}

=== FILE: outcomes.dfy ===
/** Failure-carrying wrappers shared by every module of the model. */
module Outcomes {

  /** A value that may be absent (JavaScript `undefined`, an unset field, a missing argument). */
  datatype Option<+T> = None | Some(value: T)

  /** What an awaited collaborator or a `try` block produces: a value, or a thrown error
      carrying the `message` the source reads from it. */
  datatype Result<+T> = Ok(value: T) | Err(message: string)
}

=== FILE: renderer.dfy ===
/** The renderer: the instruction banner and its shortcut markup, the waiting animation, the
    answer overlay, the text-input box, and the handlers for the main process's messages. */
module Renderer {
  import opened Outcomes
  import opened Ipc
  import opened JsText

  const KeyPrefix := "Ctrl+Shift+"
  const OpenTag := "<span class=\"kbd\">"
  const CloseTag := "</span>"
  const AnsweredBanner := "Ctrl+Shift+R: Repeat process <br> Ctrl+Shift+W: Hide Window <br> Ctrl+Shift+Q: Close"
  const InitialBanner := "Ctrl+Shift+S: Screenshot | Ctrl+Shift+A: Multi-mode <br> Ctrl+Shift+W: Hide Window | Ctrl+Shift+Q: Close"

  /** A stretch of banner text: one character, or a `Ctrl+Shift+<A-Z>` shortcut. */
  datatype Piece = Plain(c: char) | Key(letter: char)

  predicate IsUpper(c: char) {
    'A' <= c <= 'Z'
  }

  /** A shortcut starts at index `i` of `s`. */
  predicate KeyAt(s: string, i: nat) {
    i + |KeyPrefix| < |s| && s[i..i + |KeyPrefix|] == KeyPrefix && IsUpper(s[i + |KeyPrefix|])
  }

  /** How the global regular expression `/Ctrl\+Shift\+([A-Z])/g` splits a text: at each
      position, a match is taken whole and the scan resumes after it; otherwise one
      character is passed over. */
  function Scan(s: string): (ps: seq<Piece>)
    decreases |s|
  {
    if s == [] then []
    else if KeyAt(s, 0) then [Key(s[|KeyPrefix|])] + Scan(s[|KeyPrefix| + 1..])
    else [Plain(s[0])] + Scan(s[1..])
  }

  /** The text the pieces were cut from. */
  function Source(ps: seq<Piece>): string {
    if ps == [] then []
    else (match ps[0] case Plain(c) => [c] case Key(l) => KeyPrefix + [l]) + Source(ps[1..])
  }

  /** The banner markup: every shortcut wrapped in a `kbd` span. */
  function Render(ps: seq<Piece>): string {
    if ps == [] then []
    else (match ps[0] case Plain(c) => [c] case Key(l) => OpenTag + KeyPrefix + [l] + CloseTag) + Render(ps[1..])
  }

  function Keys(ps: seq<Piece>): nat {
    if ps == [] then 0 else (if ps[0].Key? then 1 else 0) + Keys(ps[1..])
  }

  /** `text.replace(/Ctrl\+Shift\+([A-Z])/g, '<span class="kbd">Ctrl+Shift+$1</span>')`. */
  function Markup(s: string): string {
    Render(Scan(s))
  }

  /** `formatKeyboardShortcuts`: the same match replaced by `Ctrl+Shift+$1`. */
  function FormatKeyboardShortcuts(s: string): string {
    Source(Scan(s))
  }

  /** Scanning loses nothing: the pieces spell the text. */
  lemma {:induction false} SourceScan(s: string)
    ensures Source(Scan(s)) == s
    decreases |s|
  {
    if s != [] {
      if KeyAt(s, 0) {
        SourceScan(s[|KeyPrefix| + 1..]);
        assert s == s[..|KeyPrefix|] + [s[|KeyPrefix|]] + s[|KeyPrefix| + 1..];
      } else {
        SourceScan(s[1..]);
        assert s == [s[0]] + s[1..];
      }
    }
  }

  /** `formatKeyboardShortcuts` returns its argument unchanged. */
  lemma FormatIsIdentity(s: string)
    ensures FormatKeyboardShortcuts(s) == s
  {
    SourceScan(s);
  }

  /** The markup only adds the two tags around each shortcut. */
  lemma {:induction false} MarkupLength(ps: seq<Piece>)
    ensures |Render(ps)| == |Source(ps)| + (|OpenTag| + |CloseTag|) * Keys(ps)
  {
    if ps != [] {
      MarkupLength(ps[1..]);
    }
  }

  /** A shortcut somewhere in the text. */
  predicate HasKey(s: string) {
    exists i: nat :: i < |s| && KeyAt(s, i)
  }

  /** The scan finds a shortcut exactly when the text contains one. */
  lemma {:induction false} ScanFindsKeys(s: string)
    ensures Keys(Scan(s)) > 0 <==> HasKey(s)
    decreases |s|
  {
    if s != [] {
      if KeyAt(s, 0) {
        assert Keys(Scan(s)) > 0;
      } else {
        var t := s[1..];
        ScanFindsKeys(t);
        assert Keys(Scan(s)) == Keys(Scan(t));
        if HasKey(t) {
          var i: nat :| i < |t| && KeyAt(t, i);
          KeyAtTail(s, i);
        }
        if HasKey(s) {
          var i: nat :| i < |s| && KeyAt(s, i);
          KeyAtTail(s, i - 1);
        }
      }
    }
  }

  /** Dropping the first character shifts every shortcut one place to the left. */
  lemma KeyAtTail(s: string, i: nat)
    requires 0 < |s|
    ensures KeyAt(s, i + 1) <==> KeyAt(s[1..], i)
  {
    if i + 1 + |KeyPrefix| < |s| {
      var n := |KeyPrefix|;
      var u, v := s[i + 1..i + 1 + n], s[1..][i..i + n];
      forall k | 0 <= k < n ensures u[k] == v[k] {
        assert s[1..][i + k] == s[i + 1 + k];
      }
      assert u == v;
    }
  }

  /** A text without shortcuts is shown as it is. */
  lemma {:induction false} MarkupWithoutKeys(s: string)
    requires !HasKey(s)
    ensures Markup(s) == s
  {
    ScanFindsKeys(s);
    RenderPlain(Scan(s));
    SourceScan(s);
  }

  lemma {:induction false} RenderPlain(ps: seq<Piece>)
    requires Keys(ps) == 0
    ensures Render(ps) == Source(ps)
  {
    if ps != [] {
      RenderPlain(ps[1..]);
    }
  }

  /** The banner's `style.opacity`: '1' or '0'. */
  datatype Opacity = Full | Clear

  /** What the answer box shows. */
  datatype Response = Blank | Answer(markdown: string) | Failure(message: string)

  /** The page state the handlers touch. `timer` is `banner.waitingInterval` being set;
      `leaked` counts intervals still pulsing whose handle was overwritten. */
  datatype Ui = Ui(
    banner: string,
    opacity: Opacity,
    original: Option<Opacity>,
    timer: bool,
    leaked: nat,
    overlay: bool,
    response: Response,
    inputShown: bool,
    inputValue: string)

  /** `initUI`. */
  function Init(): (ui: Ui)
    ensures !ui.timer && ui.leaked == 0 && ui.opacity == Full
  {
    Ui(Markup(InitialBanner), Full, None, false, 0, false, Blank, false, "")
  }

  /** `updateBanner(text, show)`: opacity follows `show`; the text, when not empty, replaces
      the banner with its markup. `None` is a call with no text. */
  function UpdateBanner(ui: Ui, text: Option<string>, show: bool): (r: Ui)
    ensures r.opacity == (if show then Full else Clear)
    ensures text.None? || text.value == [] ==> r.banner == ui.banner
    ensures text.Some? && text.value != [] ==> r.banner == Markup(text.value)
    ensures r.(banner := ui.banner, opacity := ui.opacity) == ui
  {
    var shown := ui.(opacity := if show then Full else Clear);
    if text.Some? && text.value != [] then shown.(banner := Markup(text.value)) else shown
  }

  /** `showWaitingAnimation(true)`: remember the opacity and start pulsing. A running
      interval's handle is overwritten and that interval keeps running. */
  function StartWaiting(ui: Ui): (r: Ui)
    ensures r.timer && r.original == Some(ui.opacity)
    ensures r.leaked == ui.leaked + (if ui.timer then 1 else 0)
  {
    ui.(original := Some(ui.opacity), timer := true, leaked := ui.leaked + (if ui.timer then 1 else 0))
  }

  /** `showWaitingAnimation(false)`: clear the interval and restore the remembered opacity;
      nothing happens when no interval is set. */
  function StopWaiting(ui: Ui): (r: Ui)
    ensures !r.timer && r.leaked == ui.leaked
    ensures !ui.timer ==> r == ui
    ensures ui.timer ==> r.opacity == (if ui.original.Some? then ui.original.value else Full)
  {
    if !ui.timer then ui
    else ui.(timer := false, opacity := if ui.original.Some? then ui.original.value else Full)
  }

  /** The handler registered for each channel. */
  function Apply(ui: Ui, m: Msg): (r: Ui)
    ensures m.AnalysisResult? ==>
              && r.overlay && r.response == Answer(m.result) && !r.timer && r.leaked == ui.leaked
              && r.opacity == Full
    ensures m.Error? ==>
              && r.overlay && r.response == Failure(m.message) && !r.timer && r.leaked == ui.leaked
              && r.banner == ui.banner
    ensures m.UpdateInstruction? ==>
              && r.opacity == Full && r.response == ui.response && r.timer == ui.timer
              && (m.instruction.None? ==> r.banner == ui.banner)
    ensures m.HideInstruction? ==> r == ui.(opacity := Clear)
    ensures m.HideApp? ==> r.opacity == Clear && !r.overlay && !r.timer && r.banner == ui.banner
    ensures m.ShowApp? ==> r.opacity == Full && r.overlay && r.banner == ui.banner && r.timer == ui.timer
    ensures m.ClearResult? ==> r.response == Blank && !r.overlay && !r.timer && r.banner == ui.banner
    ensures m.ScrollWindow? ==> r == ui
    ensures m.RequestStarted? ==> r.timer && r.leaked == ui.leaked + (if ui.timer then 1 else 0)
    ensures m.RequestFinished? ==> !r.timer && r.leaked == ui.leaked && r.response == ui.response
    ensures m.ShowTextInput? ==> r.inputShown && r.inputValue == "" && r.(inputShown := ui.inputShown, inputValue := "") == ui.(inputValue := "")
    ensures !m.ShowTextInput? ==> r.inputShown == ui.inputShown && r.inputValue == ui.inputValue
  {
    match m
    case AnalysisResult(result) =>
      UpdateBanner(StopWaiting(ui).(overlay := true, response := Answer(result)),
                   Some(FormatKeyboardShortcuts(AnsweredBanner)), true)
    case Error(message) => StopWaiting(ui).(overlay := true, response := Failure(message))
    case UpdateInstruction(instruction) =>
      UpdateBanner(ui, if instruction.Some? then Some(NoteText(instruction.value)) else None, true)
    case HideInstruction => UpdateBanner(ui, Some(""), false)
    case HideApp => UpdateBanner(StopWaiting(ui), Some(""), false).(overlay := false)
    case ShowApp => UpdateBanner(ui, Some(""), true).(overlay := true)
    case ClearResult => StopWaiting(ui).(response := Blank, overlay := false)
    case ScrollWindow(_) => ui
    case RequestStarted => StartWaiting(ui)
    case RequestFinished => StopWaiting(ui)
    case ShowTextInput => ui.(inputShown := true, inputValue := "")
  }

  /** After an answer, the banner shows the answered-stage help with its shortcuts marked up:
      `formatKeyboardShortcuts` leaves the text as it is. */
  lemma AnswerBanner(ui: Ui, result: string)
    ensures Apply(ui, AnalysisResult(result)).banner == Markup(AnsweredBanner)
  {
    FormatIsIdentity(AnsweredBanner);
    assert AnsweredBanner != [];
  }

  /** An instruction sent with a text replaces the banner with that text, marked up. */
  lemma InstructionBanner(ui: Ui, n: Note)
    ensures Apply(ui, UpdateInstruction(Some(n))).banner == Markup(NoteText(n))
  {
    assert |ArmedText| > 0 && |AddedText| > 0 && |HelpText| > 0;
  }

  /** The renderer's view of a trace: the messages in order; native window actions do not
      reach it. */
  function ApplyTrace(ui: Ui, t: Trace): Ui
    decreases |t|
  {
    if t == [] then ui
    else ApplyTrace(if t[0].Send? then Apply(ui, t[0].msg) else ui, t[1..])
  }

  lemma {:induction false} ApplyTraceAppend(ui: Ui, t: Trace, u: Trace)
    ensures ApplyTrace(ui, t + u) == ApplyTrace(ApplyTrace(ui, t), u)
    decreases |t|
  {
    if t == [] {
      assert t + u == u;
    } else {
      assert (t + u)[1..] == t[1..] + u;
      ApplyTraceAppend(if t[0].Send? then Apply(ui, t[0].msg) else ui, t[1..], u);
    }
  }

  /** The messages whose handlers stop the waiting animation. */
  predicate Stops(m: Msg) {
    m.RequestFinished? || m.AnalysisResult? || m.Error? || m.HideApp? || m.ClearResult?
  }

  /** Following a trace from `busy` (an animation running or not): where it ends, or None
      when it starts a request while the animation is already running. */
  function Busy(t: Trace, busy: bool): Option<bool>
    decreases |t|
  {
    if t == [] then Some(busy)
    else if t[0] == Send(RequestStarted) then (if busy then None else Busy(t[1..], true))
    else if t[0].Send? && Stops(t[0].msg) then Busy(t[1..], false)
    else Busy(t[1..], busy)
  }

  /** A trace that, shown on an idle page, never starts the animation twice and ends idle. */
  predicate Calm(t: Trace) {
    Busy(t, false) == Some(false)
  }

  lemma {:induction false} BusyAppend(t: Trace, u: Trace, busy: bool)
    ensures Busy(t + u, busy) == if Busy(t, busy).None? then None else Busy(u, Busy(t, busy).value)
    decreases |t|
  {
    if t == [] {
      assert t + u == u;
    } else {
      assert (t + u)[0] == t[0] && (t + u)[1..] == t[1..] + u;
      var next := if t[0] == Send(RequestStarted) then true
                  else if t[0].Send? && Stops(t[0].msg) then false else busy;
      BusyAppend(t[1..], u, next);
    }
  }

  lemma CalmAppend(t: Trace, u: Trace)
    requires Calm(t) && Calm(u)
    ensures Calm(t + u)
  {
    BusyAppend(t, u, false);
  }

  /** A trace that starts no request never fails, and from idle it stays idle. */
  lemma {:induction false} NoStartBusy(t: Trace, busy: bool)
    requires Send(RequestStarted) !in t
    ensures Busy(t, busy).Some?
    ensures !busy ==> Busy(t, busy) == Some(false)
    decreases |t|
  {
    if t != [] {
      assert forall e :: e in t[1..] ==> e in t;
      NoStartBusy(t[1..], if t[0].Send? && Stops(t[0].msg) then false else busy);
    }
  }

  lemma NoStartCalm(t: Trace)
    requires Send(RequestStarted) !in t
    ensures Calm(t)
  {
    NoStartBusy(t, false);
  }

  /** A request bracket around a stretch that starts nothing is calm. */
  lemma BracketCalm(m: Trace)
    requires Send(RequestStarted) !in m
    ensures Calm([Send(RequestStarted)] + m + [Send(RequestFinished)])
  {
    var t := [Send(RequestStarted)] + m + [Send(RequestFinished)];
    assert t[0] == Send(RequestStarted) && t[1..] == m + [Send(RequestFinished)];
    NoStartBusy(m, true);
    BusyAppend(m, [Send(RequestFinished)], true);
  }

  /** The page's animation follows `Busy`: when the trace never starts a request over a
      running one, the animation ends as `Busy` says and no interval leaks. */
  lemma {:induction false} TimerFollowsBusy(ui: Ui, t: Trace)
    requires Busy(t, ui.timer).Some?
    ensures ApplyTrace(ui, t).timer == Busy(t, ui.timer).value
    ensures ApplyTrace(ui, t).leaked == ui.leaked
    decreases |t|
  {
    if t != [] {
      var next := if t[0].Send? then Apply(ui, t[0].msg) else ui;
      assert next.leaked == ui.leaked;
      if t[0] == Send(RequestStarted) {
        assert next.timer;
      } else if t[0].Send? && Stops(t[0].msg) {
        assert !next.timer;
      } else {
        assert next.timer == ui.timer;
      }
      TimerFollowsBusy(next, t[1..]);
    }
  }

  /** A calm trace shown on an idle page leaves it idle, with no interval leaked. */
  lemma CalmLeavesIdle(ui: Ui, t: Trace)
    requires !ui.timer && Calm(t)
    ensures !ApplyTrace(ui, t).timer && ApplyTrace(ui, t).leaked == ui.leaked
  {
    TimerFollowsBusy(ui, t);
  }

  /** Two requests overlapping (a second hotkey while the first is in flight) leak a pulsing
      interval that nothing stops, even though every start is followed by a finish. */
  lemma OverlapLeaks(ui: Ui)
    requires !ui.timer
    ensures var t := [Send(RequestStarted), Send(RequestStarted), Send(RequestFinished), Send(RequestFinished)];
            Settles(t) && !Calm(t) && ApplyTrace(ui, t).leaked == ui.leaked + 1
  {
    var t := [Send(RequestStarted), Send(RequestStarted), Send(RequestFinished), Send(RequestFinished)];
    assert t[3] == Send(RequestFinished);
  }

  /** `sendTextInput`: the trimmed text is sent, and the box hidden, only when not blank. */
  function SendText(ui: Ui): (r: (Ui, Option<string>))
    ensures r.1.Some? <==> !AllSpace(ui.inputValue)
    ensures r.1.Some? ==> r.1.value == Trim(ui.inputValue) && r.0 == ui.(inputShown := false)
    ensures r.1.None? ==> r.0 == ui
  {
    TrimEmptyIff(ui.inputValue);
    var text := Trim(ui.inputValue);
    if text != [] then (ui.(inputShown := false), Some(text)) else (ui, None)
  }

  /** The text box's `keydown` listener. */
  function KeyDown(ui: Ui, key: string, shift: bool): (r: (Ui, Option<string>))
    ensures key == "Enter" && !shift ==> r == SendText(ui)
    ensures key == "Escape" ==> r == (ui.(inputShown := false), None)
    ensures key != "Enter" && key != "Escape" ==> r == (ui, None)
    ensures key == "Enter" && shift ==> r == (ui, None)
  {
    if key == "Enter" && !shift then SendText(ui)
    else if key == "Escape" then (ui.(inputShown := false), None)
    else (ui, None)
  }
}

=== FILE: screenshots.dfy ===
/** ScreenshotService: the list of captured images and the signals around one capture. */
module Screenshots {
  import opened Outcomes
  import opened Ipc

  /** A captured screenshot, as the base64 text the service hands on. */
  type Image = string

  /** The service's state: the images collected so far, oldest first. */
  datatype Store = Store(shots: seq<Image>)

  const Empty := Store([])

  /** `addScreenshot`: appends at the end. */
  function Add(st: Store, img: Image): (r: Store)
    ensures |r.shots| == |st.shots| + 1
    ensures r.shots[..|st.shots|] == st.shots
    ensures r.shots[|st.shots|] == img
  {
    Store(st.shots + [img])
  }

  /** `clearScreenshots`. */
  function Clear(st: Store): (r: Store)
    ensures r.shots == []
  {
    Empty
  }

  /** The trace and the result of one `captureScreenshot`. */
  datatype Capture = Capture(trace: Trace, result: Result<Image>)

  /** What every capture emits up to its `request-finished`: the busy signal, the banner
      hidden, the window hidden for the grab and shown again. */
  const CaptureHead: Trace := [Send(RequestStarted), Send(HideInstruction), HideNative, ShowNative, Send(RequestFinished)]

  /** `captureScreenshot`, given what the screen grab and file read produce: both can only
      fail after the window has been hidden, so the failure path also shows it again. */
  function CaptureShot(grab: Result<Image>): (r: Capture)
    ensures r.result == grab
    ensures |r.trace| >= 5 && r.trace[..5] == CaptureHead
    ensures r.trace[0] == Send(RequestStarted) && r.trace[1] == Send(HideInstruction)
    ensures r.trace[2] == HideNative && r.trace[3] == ShowNative && r.trace[4] == Send(RequestFinished)
    ensures grab.Ok? ==> |r.trace| == 5
    ensures grab.Err? ==> r.trace[5..] == [Send(Error(grab.message))]
  {
    match grab
    case Ok(_) => Capture(CaptureHead, grab)
    case Err(m) => Capture(CaptureHead + [Send(Error(m))], grab)
  }

  lemma HeadSignals()
    ensures Started(CaptureHead) == 1 && Finished(CaptureHead) == 1
    ensures Count(CaptureHead, HideNative) == 1 && Count(CaptureHead, ShowNative) == 1
    ensures Settles(CaptureHead)
  {
    assert multiset(CaptureHead) ==
           multiset{Send(RequestStarted), Send(HideInstruction), HideNative, ShowNative, Send(RequestFinished)};
  }

  /** A capture signals one request, hides the window once and shows it once, and finishes
      the request it started. */
  lemma CaptureSignals(grab: Result<Image>)
    ensures var t := CaptureShot(grab).trace;
            && Started(t) == 1 && Finished(t) == 1
            && Count(t, HideNative) == 1 && Count(t, ShowNative) == 1
            && Settles(t)
  {
    HeadSignals();
    if grab.Err? {
      var e := [Send(Error(grab.message))];
      assert CaptureShot(grab).trace == CaptureHead + e;
      assert multiset(CaptureHead + e) == multiset(CaptureHead) + multiset(e);
      assert Settles(e);
      SettlesAppend(CaptureHead, e);
    }
  }
}

=== FILE: session.dfy ===
/** Sequences of user actions against the controller, and the session they are meant to
    produce: the images collected, the mode, the typed message and the stage. */
module Session {
  import opened Outcomes
  import opened Ipc
  import Screenshots
  import Inference
  import Windows
  import Shortcuts
  import Controller
  import Hotkeys
  import Renderer

  /** What can happen to the main process: a hotkey callback runs, the renderer sends typed
      text, the debounce timer fires, or the settings window is closed. */
  datatype Action =
    | Hotkey(cmd: Shortcuts.Command, env: Hotkeys.Env)
    | Typed(text: string)
    | Tick
    | CloseSettings

  /** One action, run to completion before the next one starts. */
  function Step(a: Controller.App, act: Action): (r: Controller.Outcome)
    requires Controller.Valid(a)
    ensures Controller.Valid(r.app) && Controller.Keeps(a, r.app) && r.thrown == None
  {
    match act
    case Hotkey(cmd, env) => Hotkeys.Press(a, cmd, env)
    case Typed(text) => Controller.TextInput(a, text)
    case Tick => Controller.Outcome(a.(window := Windows.TimerFired(a.window)), [], None)
    case CloseSettings => Controller.Outcome(a.(window := Windows.SettingsClosed(a.window)), [], None)
  }

  /** The actions in order; the trace is everything they emitted. */
  function Run(a: Controller.App, acts: seq<Action>): (r: Controller.Outcome)
    requires Controller.Valid(a)
    ensures Controller.Valid(r.app) && Controller.Keeps(a, r.app) && r.thrown == None
    decreases |acts|
  {
    if acts == [] then Controller.Outcome(a, [], None)
    else
      var first := Step(a, acts[0]);
      var rest := Run(first.app, acts[1..]);
      Controller.Outcome(rest.app, first.trace + rest.trace, None)
  }

  /** The part of the state a user of the session sees. */
  datatype View = View(shots: seq<Screenshots.Image>, multi: bool, message: string, stage: Windows.Stage)

  function ViewOf(a: Controller.App): View {
    View(a.store.shots, a.multiPageMode, a.userMessage, a.stage)
  }

  /** Whether the hosted model answers the request for these images and this message. */
  predicate Answers(api: Inference.Api, service: Inference.Service, shots: seq<Screenshots.Image>, message: string) {
    Inference.WellFormed(api(Inference.RequestFor(service, shots, message)))
  }

  /** The session an action is meant to leave behind, stated on the view alone: a single
      capture adds its image and is answered about all of them; the first multi-capture press
      only arms the mode and later ones add an image and move to collecting; finalizing asks
      about what was collected; typed text replaces the message; reset starts over; nothing
      else touches the session. A failed capture changes nothing, and a failed inference
      leaves the stage where it was. */
  function Expected(service: Inference.Service, v: View, act: Action): View {
    match act
    case Typed(text) => v.(message := text)
    case Tick => v
    case CloseSettings => v
    case Hotkey(cmd, env) =>
      match cmd
      case Capture =>
        if v.multi then
          v.(stage := if Answers(env.api, service, v.shots, v.message) then Windows.Answered else v.stage)
        else if env.grab.Err? then v
        else
          var shots := v.shots + [env.grab.value];
          v.(shots := shots,
             stage := if Answers(env.api, service, shots, v.message) then Windows.Answered else v.stage)
      case MultiCapture =>
        if !v.multi then v.(multi := true)
        else if env.grab.Err? then v
        else v.(shots := v.shots + [env.grab.value], stage := Windows.Collecting)
      case Reset => View([], false, "", Windows.Boot)
      case _ => v
  }

  function ExpectedRun(service: Inference.Service, v: View, acts: seq<Action>): View
    decreases |acts|
  {
    if acts == [] then v else ExpectedRun(service, Expected(service, v, acts[0]), acts[1..])
  }

  /** Every action does to the session what `Expected` says. */
  lemma StepMatches(a: Controller.App, act: Action)
    requires Controller.Valid(a)
    ensures ViewOf(Step(a, act).app) == Expected(a.service, ViewOf(a), act)
  {
    match act {
      case Hotkey(cmd, env) => PressMatches(a, cmd, env);
      case _ =>
    }
  }

  lemma PressMatches(a: Controller.App, cmd: Shortcuts.Command, env: Hotkeys.Env)
    requires Controller.Valid(a)
    ensures ViewOf(Hotkeys.Press(a, cmd, env).app) == Expected(a.service, ViewOf(a), Hotkey(cmd, env))
  {
    match cmd {
      case Capture => CaptureMatches(a, env);
      case MultiCapture => MultiMatches(a, env);
      case Reset =>
      case Toggle =>
      case ShowOnly =>
      case OpenSettings =>
      case TextInput =>
      case Quit =>
      case Move(_) =>
      case Center =>
      case Scroll(_) =>
    }
  }

  lemma CaptureMatches(a: Controller.App, env: Hotkeys.Env)
    requires Controller.Valid(a)
    ensures ViewOf(Hotkeys.Press(a, Shortcuts.Capture, env).app) == Expected(a.service, ViewOf(a), Hotkey(Shortcuts.Capture, env))
  {
  }

  lemma MultiMatches(a: Controller.App, env: Hotkeys.Env)
    requires Controller.Valid(a)
    ensures ViewOf(Hotkeys.Press(a, Shortcuts.MultiCapture, env).app) == Expected(a.service, ViewOf(a), Hotkey(Shortcuts.MultiCapture, env))
  {
  }

  /** Every run does to the session what the expected runs says. */
  lemma {:induction false} RunMatches(a: Controller.App, acts: seq<Action>)
    requires Controller.Valid(a)
    ensures ViewOf(Run(a, acts).app) == ExpectedRun(a.service, ViewOf(a), acts)
    decreases |acts|
  {
    if acts != [] {
      var first := Step(a, acts[0]);
      StepMatches(a, acts[0]);
      RunMatches(first.app, acts[1..]);
    }
  }

  /** Whether an action is a press of the reset hotkey. */
  predicate IsReset(act: Action) {
    act.Hotkey? && act.cmd.Reset?
  }

  /** One action keeps the images it found, adding at most one at the end, unless it is a
      reset, which empties the list. */
  lemma ExpectedImages(service: Inference.Service, v: View, act: Action)
    ensures var w := Expected(service, v, act);
            if IsReset(act) then w.shots == []
            else v.shots <= w.shots && |w.shots| <= |v.shots| + 1
  {
  }

  /** Without a reset, a run only ever appends images, at most one per action. */
  lemma {:induction false} OnlyResetClears(service: Inference.Service, v: View, acts: seq<Action>)
    requires forall i :: 0 <= i < |acts| ==> !IsReset(acts[i])
    ensures v.shots <= ExpectedRun(service, v, acts).shots
    ensures |ExpectedRun(service, v, acts).shots| <= |v.shots| + |acts|
    decreases |acts|
  {
    if acts != [] {
      var w := Expected(service, v, acts[0]);
      ExpectedImages(service, v, acts[0]);
      OnlyResetClears(service, w, acts[1..]);
    }
  }

  /** The same of the controller itself. */
  lemma RunKeepsImages(a: Controller.App, acts: seq<Action>)
    requires Controller.Valid(a)
    requires forall i :: 0 <= i < |acts| ==> !IsReset(acts[i])
    ensures a.store.shots <= Run(a, acts).app.store.shots
    ensures |Run(a, acts).app.store.shots| <= |a.store.shots| + |acts|
  {
    RunMatches(a, acts);
    OnlyResetClears(a.service, ViewOf(a), acts);
  }

  /** The answered stage is reached only by a capture the model answered: an action that
      moves the session into it is a capture hotkey whose request got a well-formed reply. */
  lemma AnsweredOnlyByInference(service: Inference.Service, v: View, act: Action)
    requires v.stage != Windows.Answered && Expected(service, v, act).stage == Windows.Answered
    ensures act.Hotkey? && act.cmd.Capture?
    ensures var w := Expected(service, v, act); Answers(act.env.api, service, w.shots, w.message)
  {
  }

  /** A single capture whose inference fails keeps its image but not the stage change: from a
      fresh session the stage stays at boot with one image collected. */
  lemma FailedInferenceKeepsImage(a: Controller.App, env: Hotkeys.Env)
    requires Controller.Valid(a) && !a.multiPageMode && env.grab.Ok?
    requires !Answers(env.api, a.service, a.store.shots + [env.grab.value], a.userMessage)
    ensures var r := Hotkeys.Press(a, Shortcuts.Capture, env).app;
            r.store.shots == a.store.shots + [env.grab.value] && r.stage == a.stage && !r.multiPageMode
  {
    CaptureMatches(a, env);
  }

  /** No run leaves the busy indicator on. */
  lemma {:induction false} RunSettles(a: Controller.App, acts: seq<Action>)
    requires Controller.Valid(a)
    ensures Settles(Run(a, acts).trace)
    decreases |acts|
  {
    if acts == [] {
      NoStartSettles([]);
    } else {
      var first := Step(a, acts[0]);
      match acts[0] {
        case Hotkey(cmd, env) => Hotkeys.PressSettles(a, cmd, env);
        case _ => NoStartSettles(first.trace);
      }
      RunSettles(first.app, acts[1..]);
      SettlesAppend(first.trace, Run(first.app, acts[1..]).trace);
    }
  }

  /** The trace of one capture is calm. */
  lemma CaptureCalm(grab: Result<Screenshots.Image>)
    ensures Renderer.Calm(Screenshots.CaptureShot(grab).trace)
  {
    var head := Screenshots.CaptureHead;
    assert head == [Send(RequestStarted)] + [Send(HideInstruction), HideNative, ShowNative] + [Send(RequestFinished)];
    Renderer.BracketCalm([Send(HideInstruction), HideNative, ShowNative]);
    if grab.Err? {
      Renderer.NoStartCalm([Send(Error(grab.message))]);
      Renderer.CalmAppend(head, [Send(Error(grab.message))]);
    }
  }

  /** The request brackets of one inference call are calm. */
  lemma SignalsCalm(attached: bool, finishes: nat)
    requires 1 <= finishes <= 2
    ensures Renderer.Calm(Inference.Signals(attached, finishes))
  {
    if !attached {
      Renderer.NoStartCalm([]);
    } else if finishes == 1 {
      assert Inference.Signals(attached, finishes) == [Send(RequestStarted)] + [] + [Send(RequestFinished)];
      Renderer.BracketCalm([]);
    } else {
      assert Inference.Signals(attached, finishes) == [Send(RequestStarted)] + [Send(RequestFinished)] + [Send(RequestFinished)];
      Renderer.BracketCalm([Send(RequestFinished)]);
    }
  }

  /** So is the trace of asking for an answer, even when a malformed reply finishes twice. */
  lemma ProcessCalm(a: Controller.App, api: Inference.Api)
    ensures Renderer.Calm(Controller.Process(a, api).trace)
  {
    var reply := api(Inference.RequestFor(a.service, a.store.shots, a.userMessage));
    SignalsCalm(a.service.attached, if reply.Completion? && !Inference.WellFormed(reply) then 2 else 1);
    DeliverCalm(a, Inference.Process(a.service, a.store.shots, a.userMessage, api));
  }

  /** Sending the answer or the error after a calm call keeps it calm. */
  lemma DeliverCalm(a: Controller.App, call: Inference.Call)
    requires Renderer.Calm(call.trace)
    ensures Renderer.Calm(Controller.Deliver(a, call).trace)
  {
    var t := Controller.Deliver(a, call).trace;
    assert t == call.trace + [t[|t| - 1]];
    Renderer.NoStartCalm([t[|t| - 1]]);
    Renderer.CalmAppend(call.trace, [t[|t| - 1]]);
  }

  lemma CaptureKeyCalm(a: Controller.App, env: Hotkeys.Env)
    requires Controller.Valid(a)
    ensures Renderer.Calm(Hotkeys.Press(a, Shortcuts.Capture, env).trace)
  {
    if a.multiPageMode {
      ProcessCalm(a, env.api);
    } else if env.grab.Err? {
      CaptureCalm(env.grab);
    } else {
      var b := a.(store := Screenshots.Add(a.store, env.grab.value));
      CaptureCalm(env.grab);
      ProcessCalm(b, env.api);
      Renderer.CalmAppend(Screenshots.CaptureShot(env.grab).trace, Controller.Process(b, env.api).trace);
    }
  }

  lemma MultiKeyCalm(a: Controller.App, env: Hotkeys.Env)
    requires Controller.Valid(a)
    ensures Renderer.Calm(Hotkeys.Press(a, Shortcuts.MultiCapture, env).trace)
  {
    if a.multiPageMode && env.grab.Ok? {
      CaptureCalm(env.grab);
      Renderer.NoStartCalm(Windows.Instruct(Added));
      Renderer.CalmAppend(Screenshots.CaptureShot(env.grab).trace, Windows.Instruct(Added));
    } else if a.multiPageMode {
      CaptureCalm(env.grab);
    } else {
      Renderer.NoStartCalm(Hotkeys.Press(a, Shortcuts.MultiCapture, env).trace);
    }
  }

  lemma PressCalm(a: Controller.App, cmd: Shortcuts.Command, env: Hotkeys.Env)
    requires Controller.Valid(a)
    ensures Renderer.Calm(Hotkeys.Press(a, cmd, env).trace)
  {
    match cmd {
      case Capture => CaptureKeyCalm(a, env);
      case MultiCapture => MultiKeyCalm(a, env);
      case _ =>
        Hotkeys.QuietCommands(a, cmd, env);
        Renderer.NoStartCalm(Hotkeys.Press(a, cmd, env).trace);
    }
  }

  /** Every run, shown on an idle page, leaves it idle with no pulsing interval leaked: each
      action starts at most one request at a time and finishes it before the next. */
  lemma {:induction false} RunLeavesPageIdle(a: Controller.App, acts: seq<Action>, ui: Renderer.Ui)
    requires Controller.Valid(a) && !ui.timer
    ensures Renderer.Calm(Run(a, acts).trace)
    ensures var page := Renderer.ApplyTrace(ui, Run(a, acts).trace); !page.timer && page.leaked == ui.leaked
    decreases |acts|
  {
    if acts == [] {
      Renderer.NoStartCalm([]);
    } else {
      var first := Step(a, acts[0]);
      match acts[0] {
        case Hotkey(cmd, env) => PressCalm(a, cmd, env);
        case _ => Renderer.NoStartCalm(first.trace);
      }
      RunLeavesPageIdle(first.app, acts[1..], ui);
      Renderer.CalmAppend(first.trace, Run(first.app, acts[1..]).trace);
    }
    Renderer.CalmLeavesIdle(ui, Run(a, acts).trace);
  }
}

=== FILE: shortcuts.dfy ===
/** ShortcutService: the shortcut table, the rule for which accelerators get registered,
    and the bindings the two registration routines leave behind. */
module Shortcuts {
  import opened Outcomes
  import opened JsValues
  import opened JsText

  /** What a global hotkey does when pressed. */
  datatype Command =
    | OpenSettings
    | Capture
    | MultiCapture
    | TextInput
    | Reset
    | Toggle
    | Quit
    | Move(direction: string)
    | Center
    | Scroll(amount: int)
    | ShowOnly      // the single binding left while the window is hidden

  /** The registered global shortcuts: accelerator string to command. Equivalent spellings of
      one accelerator (`Ctrl+C`, `CommandOrControl+C`) are distinct keys here. */
  type Bindings = map<string, Command>

  /** Which accelerator strings Electron can parse; `register` throws on the others. */
  type Parser = string -> bool

  const DefaultTable: Value := Obj(map[
    "captureScreenshot" := Str("Ctrl+Shift+S"),
    "multiPageCapture" := Str("Ctrl+Shift+A"),
    "textInput" := Str("Ctrl+Shift+I"),
    "openSettings" := Str("Ctrl+P"),
    "toggleWindowVisibility" := Str("Ctrl+Shift+W"),
    "resetSession" := Str("Ctrl+Shift+R"),
    "quitApp" := Str("Ctrl+Shift+Q"),
    "moveWindow" := Str("Ctrl+ArrowKeys"),
    "centerWindow" := Str("Ctrl+C"),
    "scrollResponse" := Str("Ctrl+U/D")
  ])

  /** `loadShortcuts`, given whether settings.json exists and what reading and parsing it
      produced: its truthy `shortcuts` member, or the default table in every other case
      (no file, read or parse error, `null` settings, missing or falsy member). */
  function Load(present: bool, parsed: Result<Value>): (table: Value)
    ensures Truthy(table)
    ensures table == DefaultTable
            || (present && parsed.Ok? && !parsed.value.Undefined? && !parsed.value.Null?
                && table == Field(parsed.value, "shortcuts"))
    ensures (present && parsed.Ok? && !parsed.value.Undefined? && !parsed.value.Null?
             && Truthy(Field(parsed.value, "shortcuts"))) ==> table == Field(parsed.value, "shortcuts")
    ensures !present || parsed.Err? ==> table == DefaultTable
  {
    if !present then DefaultTable
    else match parsed
      case Err(_) => DefaultTable
      case Ok(settings) =>
        match Get(settings, "shortcuts")
        case Err(_) => DefaultTable
        case Ok(v) => if Truthy(v) then v else DefaultTable
  }

  /** `registerShortcut`'s guard: a string that is not blank once trimmed. */
  predicate Registrable(accelerator: Value) {
    accelerator.Str? && Trim(accelerator.s) != []
  }

  /** `globalShortcut.register`: an accelerator already registered keeps its first command. */
  function Claim(b: Bindings, accelerator: string, cmd: Command): (r: Bindings)
    ensures accelerator in r && r.Keys == b.Keys + {accelerator}
    ensures accelerator in b ==> r == b
    ensures accelerator !in b ==> r[accelerator] == cmd
    ensures forall k :: k in b ==> r[k] == b[k]
  {
    if accelerator in b then b else b[accelerator := cmd]
  }

  /** `registerShortcut`: registers a registrable accelerator Electron can parse and silently
      drops everything else, including the parser's exception. */
  function Register(b: Bindings, accelerator: Value, cmd: Command, parses: Parser): (r: Bindings)
    ensures !Registrable(accelerator) || !parses(accelerator.s) ==> r == b
    ensures Registrable(accelerator) && parses(accelerator.s) ==> r == Claim(b, accelerator.s, cmd)
  {
    if Registrable(accelerator) && parses(accelerator.s) then Claim(b, accelerator.s, cmd) else b
  }

  /** One registration `registerAllShortcuts` makes: an accelerator read from the table by
      name (through `registerShortcut`), or a fixed one (straight through `globalShortcut`). */
  datatype Slot = Configured(name: string, command: Command) | Fixed(accelerator: string, command: Command)

  /** The registrations of `registerAllShortcuts`, in source order. */
  const Slots: seq<Slot> := [
    Configured("openSettings", OpenSettings),
    Configured("captureScreenshot", Capture),
    Configured("multiPageCapture", MultiCapture),
    Configured("textInput", TextInput),
    Configured("resetSession", Reset),
    Configured("toggleWindowVisibility", Toggle),
    Configured("quitApp", Quit),
    Fixed("CommandOrControl+Left", Move("left")),
    Fixed("CommandOrControl+Right", Move("right")),
    Fixed("CommandOrControl+Up", Move("up")),
    Fixed("CommandOrControl+Down", Move("down")),
    Configured("centerWindow", Center),
    Fixed("CommandOrControl+U", Scroll(-100)),
    Fixed("CommandOrControl+D", Scroll(100))
  ]

  /** The accelerator a slot registers under this table, if any. */
  function KeyOf(slot: Slot, table: Value, parses: Parser): Option<string>
    requires Truthy(table)
  {
    match slot
    case Fixed(a, _) => Some(a)
    case Configured(name, _) =>
      var v := Field(table, name);
      if Registrable(v) && parses(v.s) then Some(v.s) else None
  }

  /** A registration attempt: the accelerator it succeeds with, if any, and its command. */
  datatype Attempt = Attempt(key: Option<string>, command: Command)

  /** The attempts the slots make under this table, in order. */
  function Attempts(slots: seq<Slot>, table: Value, parses: Parser): seq<Attempt>
    requires Truthy(table)
  {
    if slots == [] then []
    else [Attempt(KeyOf(slots[0], table, parses), slots[0].command)] + Attempts(slots[1..], table, parses)
  }

  /** Attempt `i` is slot `i` under the table. */
  lemma {:induction false} AttemptsIndexed(slots: seq<Slot>, table: Value, parses: Parser)
    requires Truthy(table)
    ensures var a := Attempts(slots, table, parses);
            |a| == |slots|
            && forall i :: 0 <= i < |slots| ==> a[i] == Attempt(KeyOf(slots[i], table, parses), slots[i].command)
  {
    if slots != [] {
      AttemptsIndexed(slots[1..], table, parses);
      var a := Attempts(slots, table, parses);
      forall i | 1 <= i < |slots| ensures a[i] == Attempt(KeyOf(slots[i], table, parses), slots[i].command) {
        assert slots[i] == slots[1..][i - 1];
      }
    }
  }

  /** The attempts made in order, starting from the bindings `b`. */
  function Bind(b: Bindings, attempts: seq<Attempt>): Bindings
    decreases |attempts|
  {
    if attempts == [] then b
    else
      var first := attempts[0];
      Bind(if first.key.Some? then Claim(b, first.key.value, first.command) else b, attempts[1..])
  }

  /** Binding keeps what was bound, binds every successful attempt's accelerator, and binds
      nothing new that no attempt claimed. */
  lemma {:induction false} BindSound(b: Bindings, attempts: seq<Attempt>)
    ensures var r := Bind(b, attempts);
            && (forall k :: k in b ==> k in r && r[k] == b[k])
            && (forall i :: 0 <= i < |attempts| && attempts[i].key.Some? ==> attempts[i].key.value in r)
            && (forall k :: k in r && k !in b ==>
                  exists i :: 0 <= i < |attempts| && attempts[i].key == Some(k) && r[k] == attempts[i].command)
    decreases |attempts|
  {
    if attempts != [] {
      var first := attempts[0];
      var b' := if first.key.Some? then Claim(b, first.key.value, first.command) else b;
      BindSound(b', attempts[1..]);
      var r := Bind(b, attempts);
      assert r == Bind(b', attempts[1..]);
      forall i | 1 <= i < |attempts| ensures attempts[i] == attempts[1..][i - 1] { }
      forall k | k in r && k !in b
        ensures exists i :: 0 <= i < |attempts| && attempts[i].key == Some(k) && r[k] == attempts[i].command
      {
        if k in b' {
          assert attempts[0].key == Some(k) && r[k] == attempts[0].command;
        } else {
          var i :| 0 <= i < |attempts[1..]| && attempts[1..][i].key == Some(k) && r[k] == attempts[1..][i].command;
          assert attempts[i + 1] == attempts[1..][i];
        }
      }
    }
  }

  /** The first successful attempt on an accelerator that was free decides its command. */
  lemma {:induction false} FirstAttemptWins(b: Bindings, attempts: seq<Attempt>, i: nat)
    requires i < |attempts| && attempts[i].key.Some? && attempts[i].key.value !in b
    requires forall j :: 0 <= j < i ==> attempts[j].key != attempts[i].key
    ensures attempts[i].key.value in Bind(b, attempts)
    ensures Bind(b, attempts)[attempts[i].key.value] == attempts[i].command
    decreases i
  {
    var first := attempts[0];
    var b' := if first.key.Some? then Claim(b, first.key.value, first.command) else b;
    assert Bind(b, attempts) == Bind(b', attempts[1..]);
    if i == 0 {
      BindSound(b', attempts[1..]);
    } else {
      assert attempts[i].key.value !in b';
      forall j | 0 <= j < i - 1 ensures attempts[1..][j].key != attempts[1..][i - 1].key {
        assert attempts[1..][j] == attempts[j + 1];
      }
      FirstAttemptWins(b', attempts[1..], i - 1);
    }
  }

  /** `registerAllShortcuts`: everything is unregistered first, so the bindings are a function
      of the table alone and a second call reproduces them instead of adding to them. Every
      accelerator that can be registered is bound, and every binding comes from a slot. */
  function RegisterAll(table: Value, parses: Parser): (r: Bindings)
    requires Truthy(table)
    ensures forall i :: 0 <= i < |Slots| && KeyOf(Slots[i], table, parses).Some? ==>
              KeyOf(Slots[i], table, parses).value in r
    ensures forall k :: k in r ==>
              exists i :: 0 <= i < |Slots| && KeyOf(Slots[i], table, parses) == Some(k) && r[k] == Slots[i].command
  {
    RegisterSlots(Slots, table, parses)
  }

  /** Registering a list of slots in order, on empty bindings. */
  function RegisterSlots(slots: seq<Slot>, table: Value, parses: Parser): (r: Bindings)
    requires Truthy(table)
    ensures forall i :: 0 <= i < |slots| && KeyOf(slots[i], table, parses).Some? ==>
              KeyOf(slots[i], table, parses).value in r
    ensures forall k :: k in r ==>
              exists i :: 0 <= i < |slots| && KeyOf(slots[i], table, parses) == Some(k) && r[k] == slots[i].command
  {
    AttemptsIndexed(slots, table, parses);
    BindSound(map[], Attempts(slots, table, parses));
    Bind(map[], Attempts(slots, table, parses))
  }

  /** `registerShowWindowShortcut`: everything is unregistered, then the toggle accelerator is
      bound to showing the window — the only binding left, when it can be registered at all. */
  function RegisterShowOnly(table: Value, parses: Parser): (r: Bindings)
    requires Truthy(table)
    ensures |r| <= 1
    ensures forall k :: k in r ==> r[k] == ShowOnly && Field(table, "toggleWindowVisibility") == Str(k)
    ensures var v := Field(table, "toggleWindowVisibility");
            Registrable(v) && parses(v.s) ==> r == map[v.s := ShowOnly]
    ensures var v := Field(table, "toggleWindowVisibility");
            !(Registrable(v) && parses(v.s)) ==> r == map[]
  {
    Register(map[], Field(table, "toggleWindowVisibility"), ShowOnly, parses)
  }

  /** A slot whose accelerator no earlier slot claimed keeps its own command. */
  lemma SlotWins(table: Value, parses: Parser, i: nat)
    requires Truthy(table) && i < |Slots| && KeyOf(Slots[i], table, parses).Some?
    requires forall j :: 0 <= j < i ==> KeyOf(Slots[j], table, parses) != KeyOf(Slots[i], table, parses)
    ensures RegisterAll(table, parses)[KeyOf(Slots[i], table, parses).value] == Slots[i].command
  {
    AttemptsIndexed(Slots, table, parses);
    FirstAttemptWins(map[], Attempts(Slots, table, parses), i);
  }

  /** No configured slot reads exactly `accelerator` from the table. */
  predicate Unclaimed(table: Value, accelerator: string)
    requires Truthy(table)
  {
    forall j :: 0 <= j < |Slots| && Slots[j].Configured? ==> Field(table, Slots[j].name) != Str(accelerator)
  }

  /** The arrow, U and D accelerators are fixed; each keeps its command unless a configured
      slot reads exactly that string from the table, in which case the slot registered first
      decides. */
  lemma FixedSlotKeepsCommand(table: Value, parses: Parser, i: nat)
    requires Truthy(table) && i < |Slots| && Slots[i].Fixed?
    requires Unclaimed(table, Slots[i].accelerator)
    ensures Slots[i].accelerator in RegisterAll(table, parses)
    ensures RegisterAll(table, parses)[Slots[i].accelerator] == Slots[i].command
  {
    var r := RegisterAll(table, parses);
    var k := Slots[i].accelerator;
    assert KeyOf(Slots[i], table, parses) == Some(k);
    var j :| 0 <= j < |Slots| && KeyOf(Slots[j], table, parses) == Some(k) && r[k] == Slots[j].command;
    FixedDistinct(i, j);
  }

  /** No two fixed slots share an accelerator. */
  lemma FixedDistinct(i: nat, j: nat)
    requires i < |Slots| && j < |Slots| && Slots[i].Fixed? && Slots[j].Fixed?
    requires Slots[i].accelerator == Slots[j].accelerator
    ensures i == j
  {
  }
}

=== FILE: windows.dfy ===
/** WindowService: the show/hide debounce guard, window placement and the stage it mirrors. */
module Windows {
  import opened Outcomes
  import opened Ipc

  /** The controller's stage: 0 at boot, 1 once multi-capture has added an image, 2 once answered. */
  datatype Stage = Boot | Collecting | Answered

  const MoveOffset := 50

  /** The service's state. `toggling` is set by an effective show or hide and cleared by the
      100 ms timer, which here is the explicit `TimerFired` event. */
  datatype Window = Window(shown: bool, toggling: bool, stage: Stage, x: int, y: int, settingsOpen: bool)

  /** The service as constructed, with the controller's `setStage(0)` applied. */
  function Init(x: int, y: int): (w: Window)
    ensures w.shown && !w.toggling && w.stage == Boot && !w.settingsOpen
  {
    Window(true, false, Boot, x, y, false)
  }

  /** A state and what getting there emitted. */
  datatype Step = Step(window: Window, trace: Trace)

  /** `showMainWindow`. */
  function Show(w: Window): (r: Step)
    ensures w.toggling || w.shown ==> r == Step(w, [])
    ensures !w.toggling && !w.shown ==>
              r.window == w.(shown := true, toggling := true)
              && r.trace == [ShowNative, Send(if w.stage == Answered then ShowApp else UpdateInstruction(None))]
  {
    if w.toggling || w.shown then Step(w, [])
    else
      var note := if w.stage == Answered then ShowApp else UpdateInstruction(None);
      Step(w.(shown := true, toggling := true), [ShowNative, Send(note)])
  }

  /** `hideMainWindow`. */
  function Hide(w: Window): (r: Step)
    ensures w.toggling || !w.shown ==> r == Step(w, [])
    ensures !w.toggling && w.shown ==>
              r.window == w.(shown := false, toggling := true) && r.trace == [Send(HideApp), HideNative]
  {
    if w.toggling || !w.shown then Step(w, [])
    else Step(w.(shown := false, toggling := true), [Send(HideApp), HideNative])
  }

  /** The 100 ms timer an effective show or hide starts. */
  function TimerFired(w: Window): (r: Window)
    ensures !r.toggling && r.(toggling := w.toggling) == w
  {
    w.(toggling := false)
  }

  /** The guard debounces: right after an effective show or hide, the opposite request is
      ignored until the timer fires, and then it takes effect. */
  lemma ToggleDebounced(w: Window)
    requires !w.toggling
    ensures !w.shown ==> var s := Show(w).window; s.shown && Hide(s) == Step(s, [])
    ensures w.shown ==> var h := Hide(w).window; !h.shown && Show(h) == Step(h, [])
    ensures !w.shown ==> Hide(TimerFired(Show(w).window)).window == w.(toggling := true)
    ensures w.shown ==> Show(TimerFired(Hide(w).window)).window == w.(toggling := true)
  {
  }

  /** `moveWindow`: left, right, up and down shift one coordinate by 50 pixels; any other
      direction string does nothing. */
  function Move(w: Window, direction: string): (r: Window)
    ensures r.(x := w.x, y := w.y) == w
    ensures direction == "left" ==> r.x == w.x - MoveOffset && r.y == w.y
    ensures direction == "right" ==> r.x == w.x + MoveOffset && r.y == w.y
    ensures direction == "up" ==> r.x == w.x && r.y == w.y - MoveOffset
    ensures direction == "down" ==> r.x == w.x && r.y == w.y + MoveOffset
    ensures direction !in {"left", "right", "up", "down"} ==> r == w
  {
    if direction == "left" then w.(x := w.x - MoveOffset)
    else if direction == "right" then w.(x := w.x + MoveOffset)
    else if direction == "up" then w.(y := w.y - MoveOffset)
    else if direction == "down" then w.(y := w.y + MoveOffset)
    else w
  }

  /** Opposite moves cancel. */
  lemma MoveInverse(w: Window)
    ensures Move(Move(w, "left"), "right") == w && Move(Move(w, "right"), "left") == w
    ensures Move(Move(w, "up"), "down") == w && Move(Move(w, "down"), "up") == w
  {
  }

  /** `Math.floor(d / 2)`. */
  function Half(d: int): int {
    d / 2
  }

  /** `centerWindow`: place the window in the middle of the screen's work area, rounding down.
      The margins left and right (top and bottom) differ by at most one pixel, the first one
      being the smaller. */
  function Center(w: Window, screenWidth: int, screenHeight: int, width: int, height: int): (r: Window)
    ensures r.(x := w.x, y := w.y) == w
    ensures 2 * r.x <= screenWidth - width < 2 * r.x + 2
    ensures 2 * r.y <= screenHeight - height < 2 * r.y + 2
    ensures 0 <= (screenWidth - width - r.x) - r.x <= 1
    ensures 0 <= (screenHeight - height - r.y) - r.y <= 1
  {
    w.(x := Half(screenWidth - width), y := Half(screenHeight - height))
  }

  /** `setStage`; `getStage` is the field read `w.stage`. */
  function SetStage(w: Window, s: Stage): (r: Window)
    ensures r.stage == s && r.(stage := w.stage) == w
  {
    w.(stage := s)
  }

  /** `createSettingsWindow`: at most one settings window; a second request focuses it. */
  function OpenSettings(w: Window): (r: Step)
    ensures r.window.settingsOpen
    ensures r.window.(settingsOpen := w.settingsOpen) == w
    ensures r.trace == [if w.settingsOpen then FocusSettingsWindow else OpenSettingsWindow]
  {
    if w.settingsOpen then Step(w, [FocusSettingsWindow])
    else Step(w.(settingsOpen := true), [OpenSettingsWindow])
  }

  /** The settings window's `closed` event. */
  function SettingsClosed(w: Window): (r: Window)
    ensures !r.settingsOpen && r.(settingsOpen := w.settingsOpen) == w
  {
    w.(settingsOpen := false)
  }

  /** `updateInstruction`: the main window always has its `webContents` here. */
  function Instruct(note: Note): Trace {
    [Send(UpdateInstruction(Some(note)))]
  }

  /** Opening settings any number of times creates one window. */
  lemma {:induction false} SettingsSingleton(w: Window, n: nat)
    requires !w.settingsOpen
    ensures Count(OpenRepeatedly(w, n + 1).trace, OpenSettingsWindow) == 1
  {
    if n > 0 {
      SettingsSingleton(w, n - 1);
      var prior := OpenRepeatedly(w, n);
      assert prior.window.settingsOpen;
      assert OpenRepeatedly(w, n + 1).trace == prior.trace + [FocusSettingsWindow];
    }
  }

  /** `n` requests for the settings window in a row. */
  function OpenRepeatedly(w: Window, n: nat): (r: Step)
    ensures n > 0 ==> r.window.settingsOpen
    ensures n > 0 ==> r.window.(settingsOpen := w.settingsOpen) == w
  {
    if n == 0 then Step(w, [])
    else
      var prior := OpenRepeatedly(w, n - 1);
      var next := OpenSettings(prior.window);
      Step(next.window, prior.trace + next.trace)
  }
}
